=== FILE: README.md ===
# Study-café back end: realtime votes, chat, registration and places

This project is a Dafny model of four NestJS services of a study-café
back end, together with the properties they keep.

- **RealtimeService** keeps one document per local day. Each document holds
  the list of users who have voted to study today, with their time window,
  status and comment. The service creates today's document on first use.
  It adds a basic vote with `$addToSet`. It edits the fields of the
  caller's entries, and it withdraws the caller's entries.
- **ChatService** keeps one chat per unordered pair of users. A chat is
  stored under the pair ordered by string comparison. The service finds a
  conversation from either side and is meant to list a user's chats,
  newest message first (see Findings: the comparator as written does not
  guarantee that order). It finds the user's most recently created chat, and it appends a
  message or opens a chat.
- **RegisterService** checks that a telephone number has the form
  `010-dddd-dddd`. It refuses to store the number unless an encryption key
  is configured. It upserts the registration by uid. On approval it copies
  the registration into the user collection with the initial role,
  deposit and activation, and then deletes the registration.
- **PlaceService** lists the places with a given status. It validates a
  new place and stores it as inactive. It moves a place between `active`
  and `inactive` and rejects a change that modifies nothing.

How the model is built:

- Each collection is a pure value:
  - the realtime documents are a map from the day's midnight to the day;
  - the other collections are sequences in natural order.
- Each operation is a function that returns the new collection together
  with an `Ok` or `Err` result (`Common.Step`).
- Values that arrive untyped from a request are `Common.JsValue`, with
  JavaScript truthiness.
- These are parameters of the operations:
  - the clock;
  - the ids the store assigns;
  - the schema parsers, as predicates;
  - the cipher, as a pair of functions;
  - the store-side `$set` of `updateStudy`.

Files:

| file | module | contents |
|---|---|---|
| common.dfy | Common | ids, `Option`, `Result`, JavaScript values and truthiness, error kinds |
| lex.dfy | Lex | the lexicographic order on strings, proved a strict total order; it is JavaScript's `<` and `>` on strings whose characters lie below U+10000 |
| collections.dfy | Collections | store primitives: filter, `$addToSet`, `findOne`, upsert, `deleteOne` |
| realtime.dfy | RealtimeService | local midnight, today's document, the vote operations |
| chat.dfy | ChatService | the canonical pair, the chat operations, the chat-list ordering |
| register.dfy | RegisterService | the telephone pattern, the key-dependent encoding, register and approve |
| place.dfy | PlaceService | the place queries and updates |

## Model

| member | source | states |
|---|---|---|
| RealtimeService.Today | src/realtime/realtime.service.ts:39-43 | today's key is a local midnight (time of day zero at the given offset), and it is the latest one not after the current instant |
| RealtimeService.MidnightUnique | src/realtime/realtime.service.ts:39-43 | any local midnight within the day before `now` is today's key, so the key is determined by those two properties |
| RealtimeService.TodayIdempotent | src/realtime/realtime.service.ts:39-43 | setting the hours of a midnight to zero again gives the same midnight |
| RealtimeService.GetTodayData | src/realtime/realtime.service.ts:45-54 | after loading, today's document exists; an existing document is returned unchanged and untouched; otherwise an empty document for today is created; documents stay keyed by their date |
| RealtimeService.GetTodayDataIdempotent | src/realtime/realtime.service.ts:45-54 | loading twice is loading once: the second load creates nothing |
| RealtimeService.BasicVoteEntry | src/realtime/realtime.service.ts:60-64 | the validated entry has status `pending` and the caller as user, whatever the request said; its other fields come from the request |
| RealtimeService.CreateBasicVote | src/realtime/realtime.service.ts:57-81 | fails with a schema error and writes nothing exactly when the entry does not parse; otherwise today's list keeps its old entries in order, grows by at most one entry and then holds exactly the old entries and the new one; other days are untouched and documents stay keyed by their date |
| Collections.AddToSet | src/realtime/realtime.service.ts:71 | the list only grows at the end, by at most one element, and afterwards holds exactly the old elements and the new one; an element already present is not added again, so the list is unchanged |
| Collections.AddToSetIdempotent | src/realtime/realtime.service.ts:71 | adding the same element a second time changes nothing |
| RealtimeService.CreateBasicVoteIdempotent | src/realtime/realtime.service.ts:68-78 | repeating a basic vote with the same data leaves the store as after the first |
| RealtimeService.BasicVotesOfOneUserAccumulate | src/realtime/realtime.service.ts:68-78 | two basic votes of one user that differ in another field both stay in today's list, so the list can hold two entries of one user |
| RealtimeService.UpdateFields | src/realtime/realtime.service.ts:131-139 | every present field `k` of the request becomes the update path `userList.$[elem].k` with its value, and no other path is set |
| RealtimeService.UpdateFieldsSkipsAbsent | src/realtime/realtime.service.ts:133-139 | a field that is `undefined` or `null` produces no update path |
| RealtimeService.UpdateStudy | src/realtime/realtime.service.ts:130-157 | fails with `Failed to update study` and writes nothing exactly when today has no document or no entry of the caller; otherwise only the caller's entries of today are updated, in place, and every other entry is kept |
| RealtimeService.SetTime | src/realtime/realtime.service.ts:165-166 | the entry's window becomes the new start and end; nothing else in the entry changes |
| Collections.MapWhere | src/realtime/realtime.service.ts:195-199 | the `forEach` assignment over the list: same length, each entry that matches is replaced by its image, every other entry is kept in place (also lines 163-168 and 210-215) |
| RealtimeService.PatchVote | src/realtime/realtime.service.ts:159-177 | with a falsy bound, resolves to an error value without saving; with truthy bounds it never does: a caller entry without a window fails, and otherwise it succeeds (as `Patched`) exactly when the edited document saves; every failure is an empty `Error` that keeps only the load's effect; on success only the caller's windows change, position by position |
| RealtimeService.PatchVoteIdempotent | src/realtime/realtime.service.ts:159-177 | after a successful patch, patching the same window again succeeds and changes nothing |
| RealtimeService.DeleteVote | src/realtime/realtime.service.ts:179-190 | succeeds exactly when the filtered document saves; then today's list holds exactly the entries of other users; a failed save is rethrown as an empty `Error` and keeps only the load's effect |
| RealtimeService.DeleteVoteKeepsOthersInOrder | src/realtime/realtime.service.ts:182-184 | the entries that remain keep their order and their multiplicity |
| Collections.Filter | src/realtime/realtime.service.ts:182-184 | the result holds exactly the elements that satisfy the predicate and is no longer than the input |
| Collections.FilterKeepsOrder | src/realtime/realtime.service.ts:182-184 | the filtered list is a subsequence of the original, and each kept element keeps its multiplicity |
| Collections.FilterConcat | src/realtime/realtime.service.ts:182-184 | filtering distributes over concatenation |
| Collections.FilterIdempotent | src/realtime/realtime.service.ts:182-184 | filtering twice is filtering once |
| RealtimeService.DeleteVoteIdempotent | src/realtime/realtime.service.ts:179-190 | after a successful withdrawal, withdrawing again succeeds and changes nothing |
| RealtimeService.FilterOthersAfterAdd | src/realtime/realtime.service.ts:182-184 | removing the caller's entries also removes one just added by `$addToSet` |
| RealtimeService.DeleteUndoesCreate | src/realtime/realtime.service.ts:179-190 | a basic vote followed by a successful withdrawal leaves the store exactly as the withdrawal alone would |
| RealtimeService.PatchStatus | src/realtime/realtime.service.ts:191-205 | succeeds exactly when the edited document saves; then only the status of the caller's entries changes, position by position; a failed save is rethrown as an empty `Error` |
| RealtimeService.PatchStatusIdempotent | src/realtime/realtime.service.ts:191-205 | after a successful patch, setting the same status again succeeds and changes nothing |
| RealtimeService.SetComment | src/realtime/realtime.service.ts:212-213 | the entry ends with a comment whose text is the new text, created if missing; nothing else in the entry changes |
| RealtimeService.PatchComment | src/realtime/realtime.service.ts:206-221 | succeeds exactly when the edited document saves; then only the comment of the caller's entries changes, position by position; a failed save is rethrown as an empty `Error` |
| RealtimeService.PatchCommentIdempotent | src/realtime/realtime.service.ts:206-221 | after a successful patch, setting the same comment again succeeds and changes nothing |
| ChatService.CanonicalPair | src/chatz/chat.service.ts:39-40 | the stored pair is the two users ordered by string comparison, and consists of exactly those two users |
| ChatService.CanonicalPairSymmetric | src/chatz/chat.service.ts:98-99 | both users compute the same pair, so they reach the same chat |
| ChatService.CanonicalPairUnique | src/chatz/chat.service.ts:39-40 | the canonical pair is the only ordered pair of those two users |
| Lex.Trichotomy | src/chatz/chat.service.ts:39-40 | of two strings, exactly one is smaller or they are equal, so the two ternaries never pick the same side for distinct users |
| Lex.LessTransitive | src/chatz/chat.service.ts:39-40 | the string order is transitive |
| Lex.LessByPrefix | src/chatz/chat.service.ts:39-40 | one string is below another exactly when it is a proper prefix, or it has the smaller character at the first difference |
| ChatService.GetChat | src/chatz/chat.service.ts:38-52 | fails with `Can't find chatting` exactly when no chat has the pair; otherwise the opponent is the other user and the contents are those of the first chat of the pair, as `findOne` returns |
| Collections.FindFirst | src/chatz/chat.service.ts:42-46 | `findOne`: the index of the first matching element, and none exactly when no element matches |
| ChatService.Opponent | src/chatz/chat.service.ts:47-50 | for a chat the caller belongs to, the caller and the opponent are exactly the chat's two members (also lines 61-62) |
| ChatService.GetChatSameConversation | src/chatz/chat.service.ts:38-52 | either user finds the conversation exactly when the other does, and both see the same messages |
| ChatService.Summaries | src/chatz/chat.service.ts:55-72 | one line per chat of the caller, in stored order; each line holds the user record of the chat's other member when the user collection has it and nothing otherwise, and the chat's last message |
| ChatService.LastContent | src/chatz/chat.service.ts:67-69 | a chat's last message is absent exactly when it has none, and is otherwise its final element |
| ChatService.SummaryContent | src/chatz/chat.service.ts:61-70 | each line belongs to a chat of the caller: it carries that chat's other member when the user collection has them, and its last message, or none for an empty chat |
| ChatService.CompareAsWritten | src/chatz/chat.service.ts:74-81 | the comparator returns -1 exactly when both lines have messages and the first is strictly later, and 1 otherwise |
| ChatService.CompareAsWrittenInconsistent | src/chatz/chat.service.ts:74-81 | when the first line has no message, or both messages have the same time, the comparator puts each line after the other |
| ChatService.CompareAsWrittenCounterexample | src/chatz/chat.service.ts:74-81 | a chat with no message compared with one that has a message gives 1 in both directions |
| ChatService.AtLeastAsRecentTotalPreorder | src/chatz/chat.service.ts:74-81 | "no older than" (a line without a message is oldest) is total and transitive |
| ChatService.CompareByRecency | src/chatz/chat.service.ts:74-81 | the corrected comparator is negative, zero or positive exactly as the first line is newer, as recent, or older |
| ChatService.CompareByRecencyConsistent | src/chatz/chat.service.ts:74-81 | the corrected comparator is antisymmetric and transitive, as `Array.prototype.sort` needs |
| ChatService.CompareByRecencyAgrees | src/chatz/chat.service.ts:78-80 | when both lines have messages with different times, the corrected comparator gives the written comparator's answer |
| ChatService.Insert | src/chatz/chat.service.ts:74 | inserting into a list sorted by recency keeps it sorted and adds exactly the one line |
| ChatService.SortedNewestFirst | src/chatz/chat.service.ts:74-81 | a list sorted by recency has its message-less lines last and the others newest first, the order the comparator's author intended |
| ChatService.SortByRecency | src/chatz/chat.service.ts:74 | the sort returns a permutation of its input that is sorted newest first |
| ChatService.GetChats | src/chatz/chat.service.ts:54-82 | the list is a permutation of the caller's chat lines; lines with a message come first, newest first; lines without one come last |
| ChatService.MostRecent | src/chatz/chat.service.ts:84-88 | the result is absent exactly for no chats, and is otherwise a chat with the greatest creation time |
| ChatService.GetRecentChat | src/chatz/chat.service.ts:83-95 | the empty string when the caller has no chat; otherwise the id of one of the caller's chats with the greatest creation time |
| ChatService.CreateChat | src/chatz/chat.service.ts:97-135 | a schema failure writes nothing; otherwise the message is appended to the first chat of the pair, or a chat is created with it alone; a missing recipient then fails with `toUserUid is incorrect` after the write; one chat per canonical pair is preserved |
| ChatService.SentMessageIsLast | src/chatz/chat.service.ts:97-120 | after a message is sent, the recipient's `getChat` finds the chat, sees the sender as the opponent and the message as the last one |
| RegisterService.FullMatchPositionwise | src/register/register.service.ts:50 | an anchored pattern without repetition matches a string exactly when they have the same length and each character matches its position |
| RegisterService.IsTelephoneShape | src/register/register.service.ts:50-53 | a number passes exactly when it has 13 characters: `010-`, four digits, `-`, four digits |
| RegisterService.Encode | src/register/register.service.ts:30-35 | without a configured key, the number is returned unchanged; with one, it is the cipher text under that key |
| RegisterService.Decode | src/register/register.service.ts:37-44 | without a configured key, the stored text is returned unchanged; with one, it is the plaintext under that key |
| RegisterService.DecodeEncodeWithoutKey | src/register/register.service.ts:30-44 | without a key, decoding an encoded number gives it back |
| RegisterService.DecodeEncodeWithKey | src/register/register.service.ts:30-44 | with a key, decoding an encoded number gives it back exactly when the cipher pair round-trips on that number and key; the cipher is a parameter, so this only says that `getUserInfo` decodes with the same key and nothing else |
| RegisterService.Register | src/register/register.service.ts:46-82 | succeeds exactly when the number has the form `010-dddd-dddd`, its encoding is changed and non-empty, and the schema accepts the record; a malformed number fails with `Invalid telephone number`, a missing key with `Key not exist`, a rejected record with a schema error; no failure writes; on success a new uid's record is appended, an existing uid's first record has the form `$set` onto it, and other uids' records stay |
| RegisterService.RegisteredRecordCarriesForm | src/register/register.service.ts:60-74 | after a successful registration the uid has a record, and every record of the uid holds the token's picture, the encrypted number, the form's location and fields, and the earlier record's other fields |
| RegisterService.MergeRegistration | src/register/register.service.ts:67-74 | `$set` of the update onto a stored record: every field of the update wins, and pass-through fields only the stored record has are kept |
| Collections.Upsert | src/register/register.service.ts:67-74 | with no element of the key the record is appended; otherwise exactly the first element of the key is replaced by the update applied to it; elements of other keys stay; keys stay unique |
| Collections.UpsertedElement | src/register/register.service.ts:67-74 | with unique keys, the key is present afterwards, and its element is the update applied to the earlier element, or the update itself when there was none |
| RegisterService.RegisterNeedsKey | src/register/register.service.ts:55-57 | without a configured key, registration always fails and writes nothing |
| RegisterService.RegisteredTelephoneChecked | src/register/register.service.ts:50-53 | a registration that succeeded had a number of the form `010-dddd-dddd`: 13 characters, `010-`, four digits, `-`, four digits |
| RegisterService.RegisterAgainReplaces | src/register/register.service.ts:67-74 | a second successful registration of the same uid does not grow the collection, and uids stay unique |
| RegisterService.Promote | src/register/register.service.ts:90-96 | the user record copies the registration and sets role `human`, the current date, active, and deposit 3000 |
| RegisterService.Approve | src/register/register.service.ts:84-113 | fails with `wrong uid`, writing nothing, exactly when no registration has the uid; otherwise, for the first registration of the uid, the users become exactly `UpsertUser` of its promotion and the registrations lose exactly that record; users and registrations of other uids are neither added nor dropped; uniqueness of uids is kept in both collections |
| RegisterService.UpsertUser | src/register/register.service.ts:99-102 | `findOneAndUpdate` with `upsert`: the promoted user is appended when no user has its uid; otherwise it is `$set` onto the first user of the uid (`MergeUser`, so that user's other details survive) and nothing else changes; users of other uids are neither added nor dropped |
| RegisterService.PromoteAt | src/register/register.service.ts:98-104 | the two writes of a successful approval for the first registration of a uid: the users are `UpsertUser` of the promotion, the registrations lose exactly that record, other records stay both ways |
| RegisterService.DeleteRegisterUserAt | src/register/register.service.ts:115-121 | deleting by uid removes exactly the first record of the uid |
| RegisterService.MergeUser | src/register/register.service.ts:99-102 | `$set` of the promoted form onto an existing user: every field of the form wins, the user's other pass-through fields are kept, and no other field appears |
| RegisterService.ApprovePromotes | src/register/register.service.ts:98-104 | after approval the user collection holds a user with the uid, role `human`, active, with deposit 3000, and no registration with the uid remains |
| RegisterService.DeleteRegisterUser | src/register/register.service.ts:115-121 | with no record of the uid nothing changes; otherwise exactly the first record of the uid is removed; every record of another uid keeps its multiplicity; with unique uids, none of the uid remain |
| RegisterService.DeleteRegisterUserKeepsOrder | src/register/register.service.ts:115-121 | with unique uids, deleting one record is filtering out the uid, so the rest keep their order |
| Collections.RemoveFirst | src/register/register.service.ts:119 | without a match nothing changes; otherwise exactly the first match is removed (the result is the list around it), and every non-matching element keeps its multiplicity |
| Collections.RemoveAt | src/register/register.service.ts:119 | removing one matching element adds nothing and keeps every non-matching element with its multiplicity |
| Collections.RemoveFirstIsFilter | src/register/register.service.ts:119 | when at most one element matches, removing the first match is filtering all matches |
| PlaceService.GetActivePlace | src/place/place.service.ts:14-21 | exactly the places with the requested status, in stored order and with their multiplicity |
| PlaceService.ActiveAndInactivePartition | src/place/place.service.ts:14-17 | when every place is active or inactive, the two listings together have as many places as the collection |
| PlaceService.Prepare | src/place/place.service.ts:42-45 | a falsy time becomes `unknown`, a falsy registration date becomes the current date; status is forced to `inactive` and the registrant to the caller; no other field changes |
| PlaceService.AddPlace | src/place/place.service.ts:23-69 | succeeds exactly when the ten required fields are truthy and the schema accepts the prepared place, and then appends exactly the prepared place under the new id; each failure writes nothing and is rethrown as a plain `Error` wrapping the original one |
| Common.Rewrap | src/place/place.service.ts:66-68 | the rethrown error is a plain `Error` whose message begins with the original error's name and ends with its message |
| PlaceService.AddedPlaceNotActive | src/place/place.service.ts:44 | adding a place does not change the active listing |
| PlaceService.UpdateStatus | src/place/place.service.ts:71-80 | a status outside `active`/`inactive` fails with `wrong status`; no matching place, or a place that already has the status, fails with `update failed`; otherwise exactly that place's status changes |
| PlaceService.UpdateToSameStatusFails | src/place/place.service.ts:76-77 | setting a place to the status it has reports `update failed` |
| PlaceService.UpdatedPlaceListedUnderNewStatus | src/place/place.service.ts:71-80 | after a successful update the place is listed under its new status |

## Left out

- `markAttendance` of the realtime service is not modelled. It needs image upload, vote lookups and attendance bookkeeping in other services.
- `getRecentStudy` is `getTodayData` under another name, so `RealtimeService.GetTodayData` covers it.
- `getRegister` is not modelled. It is a plain listing that runs the decoding in callbacks that are not awaited. The decoding itself is `RegisterService.Decode`.
- Concurrency is not modelled. Each operation runs atomically against the collection it reads. The source's load-modify-save steps are not atomic.
- Several effects are left out because they do not change the collections:
  - notifications (web push and FCM);
  - logging;
  - the un-awaited `deleteVote` call into the vote service inside `createBasicVote`.
- The local clock is left out. The current instant is an integer count of milliseconds, and the time-zone offset is a fixed parameter. Daylight-saving changes are not modelled.
- Zod schema parsing and Mongoose validation on save are predicate parameters (`schemaOk`, `entryOk`, `contentOk`, `chatOk`). Their rules are not modelled.
- The cipher is a pair of function parameters. AES itself is not modelled.
- RegisterService.Encode: the cipher is a function of the number and the key. CryptoJS's passphrase mode draws a random salt, so two encryptions of one number differ. Where a contract names `Encode(key, tel, encrypt)` (as RegisteredRecordCarriesForm does), `encrypt` stands for the one draw that this call makes, not for a function that gives the same text on every call.
- Lex.Less: characters are compared as Unicode scalar values. JavaScript compares UTF-16 code units, so ids containing characters at or above U+10000 can order differently. Ids are taken to be below that range.
- RegisterService.MergeRegistration and RegisterService.MergeUser: the fields the service handles by name are always present in the update. Any other field is in `details`, and `$set` is modelled on `details` key by key. Nested paths are not modelled.
- Store ids, creation times and the current date text are parameters.
- RealtimeService.UpdateStudy: the store applies `$set` with an array filter to each of the caller's entries. The model represents that application as the parameter `apply`. The contract says which entries change and which update paths are built. It does not say how a dotted path rewrites an entry.
- RealtimeService.CreateBasicVote: `$addToSet` is modelled as value equality of entries. Any ids Mongoose might add to subdocuments are not modelled.
- ChatService.GetChat: the populated opponent is reduced to their id, and the case where populating finds no user is left out.
- ChatService.GetChats: the lookup of the other user by id is a map lookup. The model compares the stored user ids with the caller's id as plain ids.
- ChatService.GetChats: with the written comparator, the order is implementation-defined: ECMAScript's `Array.prototype.sort` leaves it so when the comparator is not consistent, and this one is not (see Findings). The model sorts with the corrected comparator.
- ChatService.CreateChat: the `chat.save()` after `updateOne` has no further effect and is not modelled.
- RegisterService.Register: the `register failed` branch is left out. An upsert that returns the new document cannot return null.
- RegisterService.Register: the model assumes the request body carries no `uid` or `profileImage` key. The form's declared type omits them, but that is only a compile-time type. At src/register/register.service.ts:60-65 the form is spread after `uid` and `profileImage`, so a body carrying `uid` would override the token's uid in the stored `$set`. That could break the one-record-per-uid property that RegisterAgainReplaces states.
- RegisterService.Approve: write failures inside the `try` are not modelled. The store writes are total in the model.
- RegisterService.DeleteRegisterUser: the optional `session` only selects a transaction and does not change the effect, so it is not modelled.
- PlaceService.AddPlace and PlaceService.UpdateStatus: the source uses `ValidationError` and `DatabaseError` without importing them. The model treats them as the error kinds they name, not as a reference error.
- JavaScript values are simplified: `NaN` and objects with getters are not modelled, and a number is a real.

`createBasicVote` deduplicates only identical entries, so one user can hold two entries on the same day. `RealtimeService.BasicVotesOfOneUserAccumulate` shows this.

## Findings

| source | as written | input that shows it | evidently intended | confidence | as-written member | corrected member |
|---|---|---|---|---|---|---|
| src/chatz/chat.service.ts:74-81 | the comparator returns 1 whenever either line has no message, and 1 for two messages with the same time | a line with no message against a line whose message was created at time 0: the comparator returns 1 in both directions, so the order depends on the engine's sort | chats sorted newest message first, chats without messages last, ties kept together | not executed; high that the comparator is inconsistent, medium on the intended order of message-less chats | ChatService.CompareAsWrittenCounterexample | ChatService.CompareByRecencyConsistent |

=== FILE: chat.dfy ===
/** The chat keying and message logic of `ChatService`.

    A chat belongs to an unordered pair of users and is stored once, under
    the pair ordered by the string order (`user1 <= user2`). The chat
    collection is a sequence in natural order; the user collection is a
    map from user id to user. Schema parsing is a predicate parameter, the
    clock is `now`, and the id a new chat receives is `newId`.
    Notifications to the recipient are not modelled.
 */
module ChatService {
  import opened Common
  import opened Collections
  import opened Lex

  datatype Content = Content(userId: Id, content: string, createdAt: int)

  datatype Chat = Chat(id: Id, user1: Id, user2: Id, contents: seq<Content>, createdAt: int)

  datatype User = User(id: Id, uid: string)

  type Chats = seq<Chat>

  type Users = map<Id, User>

  datatype Pair = Pair(user1: Id, user2: Id)

  // ---------------------------------------------------------------------------
  // Canonical pair

  /** The pair `getChat` and `createChat` compute:
      `user1 = me > other ? other : me`, `user2 = me < other ? other : me`. */
  function CanonicalPair(me: Id, other: Id): (p: Pair)
    ensures LessEq(p.user1, p.user2)
    ensures {p.user1, p.user2} == {me, other}
  {
    Trichotomy(me, other);
    Pair(if Less(other, me) then other else me, if Less(me, other) then other else me)
  }

  /** Both users of a pair reach the same chat. */
  lemma CanonicalPairSymmetric(a: Id, b: Id)
    ensures CanonicalPair(a, b) == CanonicalPair(b, a)
  {
    Trichotomy(a, b);
  }

  /** The canonical pair is the pair sorted: it is the only ordered pair
      with those two members. */
  lemma CanonicalPairUnique(me: Id, other: Id, p: Pair)
    requires LessEq(p.user1, p.user2) && {p.user1, p.user2} == {me, other}
    ensures p == CanonicalPair(me, other)
  {
    var q := CanonicalPair(me, other);
    Trichotomy(p.user1, p.user2);
    Trichotomy(q.user1, q.user2);
    assert p.user1 in {me, other} && p.user2 in {me, other};
    assert me in {p.user1, p.user2} && other in {p.user1, p.user2};
  }

  function PairOf(c: Chat): Pair {
    Pair(c.user1, c.user2)
  }

  /** The filter `{ user1, user2 }`. */
  function Keyed(p: Pair): (matches: Chat -> bool)
    ensures forall c :: matches(c) <==> PairOf(c) == p
  {
    (c: Chat) => PairOf(c) == p
  }

  /** The chat collection keeps one chat per unordered pair, under its
      canonical pair. */
  ghost predicate Canonical(chats: Chats) {
    && (forall i :: 0 <= i < |chats| ==> LessEq(chats[i].user1, chats[i].user2))
    && UniqueKeys(chats, PairOf)
  }

  // ---------------------------------------------------------------------------
  // getChat

  datatype ChatView = ChatView(opponent: Id, contents: seq<Content>)

  /** The member of the chat that is not `me` (`me` itself for a chat with
      oneself). */
  function Opponent(c: Chat, me: Id): (o: Id)
    ensures (c.user1 == me || c.user2 == me) ==> multiset{c.user1, c.user2} == multiset{me, o}
  {
    if c.user1 == me then c.user2 else c.user1
  }

  /** `getChat`: the chat of `me` and `other`, seen from `me`. */
  function GetChat(chats: Chats, me: Id, other: Id): (r: Result<ChatView>)
    ensures var p := CanonicalPair(me, other);
      r.Err? <==> forall i :: 0 <= i < |chats| ==> PairOf(chats[i]) != p
    ensures r.Err? ==> r.failure == DatabaseError("Can't find chatting")
    ensures r.Ok? ==> r.value.opponent == other
    ensures r.Ok? ==> exists i :: 0 <= i < |chats| && PairOf(chats[i]) == CanonicalPair(me, other)
                                  && (forall j :: 0 <= j < i ==> PairOf(chats[j]) != CanonicalPair(me, other))
                                  && r.value.contents == chats[i].contents
  {
    var p := CanonicalPair(me, other);
    match FindFirst(chats, Keyed(p))
    case None => Err(DatabaseError("Can't find chatting"))
    case Some(i) => Ok(ChatView(Opponent(chats[i], me), chats[i].contents))
  }

  /** Either user opens the same conversation, each seeing the other. */
  lemma GetChatSameConversation(chats: Chats, a: Id, b: Id)
    ensures GetChat(chats, a, b).Ok? <==> GetChat(chats, b, a).Ok?
    ensures GetChat(chats, a, b).Ok? ==>
              GetChat(chats, a, b).value.contents == GetChat(chats, b, a).value.contents
  {
    CanonicalPairSymmetric(a, b);
  }

  // ---------------------------------------------------------------------------
  // getChats

  /** One line of the chat list: the other user (when the user collection
      has them) and the chat's last message (when it has one). */
  datatype Summary = Summary(user: Option<User>, content: Option<Content>)

  function LastContent(contents: seq<Content>): (r: Option<Content>)
    ensures r.None? <==> |contents| == 0
    ensures r.Some? ==> r.value == contents[|contents| - 1]
  {
    if |contents| == 0 then None else Some(contents[|contents| - 1])
  }

  /** The filter `$or: [{ user1: me }, { user2: me }]`. */
  function Involves(me: Id): (p: Chat -> bool)
    ensures forall c :: p(c) <==> c.user1 == me || c.user2 == me
  {
    (c: Chat) => c.user1 == me || c.user2 == me
  }

  function Summarize(c: Chat, users: Users, me: Id): Summary {
    var opponent := Opponent(c, me);
    Summary(if opponent in users then Some(users[opponent]) else None, LastContent(c.contents))
  }

  /** The chat list before sorting, in the collection's order. */
  function Summaries(chats: Chats, users: Users, me: Id): (r: seq<Summary>)
    ensures var mine := Filter(chats, Involves(me));
      && |r| == |mine|
      && forall i :: 0 <= i < |r| ==>
           var o := Opponent(mine[i], me);
           && multiset{mine[i].user1, mine[i].user2} == multiset{me, o}
           && r[i].user == (if o in users then Some(users[o]) else None)
           && r[i].content == LastContent(mine[i].contents)
  {
    var mine := Filter(chats, Involves(me));
    assert forall i :: 0 <= i < |mine| ==> mine[i] in mine;
    seq(|mine|, i requires 0 <= i < |mine| => Summarize(mine[i], users, me))
  }

  /** Each summary belongs to one of the caller's chats: it carries the
      chat's other member when the user collection has them, and the
      chat's last message, or none when the chat is empty. */
  lemma SummaryContent(chats: Chats, users: Users, me: Id, i: nat)
    requires i < |Summaries(chats, users, me)|
    ensures var s := Summaries(chats, users, me)[i];
      exists c :: c in chats && (c.user1 == me || c.user2 == me) &&
        var o := Opponent(c, me);
        && multiset{c.user1, c.user2} == multiset{me, o}
        && s.user == (if o in users then Some(users[o]) else None)
        && (if |c.contents| == 0 then s.content.None? else s.content == Some(c.contents[|c.contents| - 1]))
  {
    var mine := Filter(chats, Involves(me));
    assert mine[i] in mine;
  }

  /** The comparator `getChats` hands to `sort`, as written: -1 (first
      argument first) only when both have a message and the first is the
      later; 1 in every other case. */
  function CompareAsWritten(a: Summary, b: Summary): (r: int)
    ensures r == -1 || r == 1
    ensures r == -1 <==> a.content.Some? && b.content.Some?
                         && a.content.value.createdAt > b.content.value.createdAt
  {
    if a.content.None? || b.content.None? then 1
    else if a.content.value.createdAt > b.content.value.createdAt then -1
    else 1
  }

  /** The comparator as written is not a consistent comparison: a summary
      without a message is put after every other summary and every other
      summary after it, and so are two messages sent at the same instant.
      The order `sort` produces from it is left to the engine. */
  lemma CompareAsWrittenInconsistent(a: Summary, b: Summary)
    requires a.content.None? || (a.content.Some? && b.content.Some?
                                 && a.content.value.createdAt == b.content.value.createdAt)
    ensures CompareAsWritten(a, b) > 0 && CompareAsWritten(b, a) > 0
  {
  }

  /** A concrete pair the comparator orders both ways. */
  lemma CompareAsWrittenCounterexample()
    ensures var empty := Summary(None, None);
            var recent := Summary(None, Some(Content("u", "hi", 0)));
            CompareAsWritten(empty, recent) == 1 && CompareAsWritten(recent, empty) == 1
  {
  }

  /** The intended order: chats with a message come first, later ones
      before earlier ones; chats without one come last. */
  predicate AtLeastAsRecent(a: Summary, b: Summary) {
    b.content.None? || (a.content.Some? && a.content.value.createdAt >= b.content.value.createdAt)
  }

  lemma AtLeastAsRecentTotalPreorder()
    ensures forall a, b :: AtLeastAsRecent(a, b) || AtLeastAsRecent(b, a)
    ensures forall a, b, c :: AtLeastAsRecent(a, b) && AtLeastAsRecent(b, c) ==> AtLeastAsRecent(a, c)
  {
  }

  /** The corrected comparator: negative, zero or positive as `a` is more
      recent than, as recent as, or less recent than `b`. */
  function CompareByRecency(a: Summary, b: Summary): (r: int)
    ensures r < 0 <==> AtLeastAsRecent(a, b) && !AtLeastAsRecent(b, a)
    ensures r == 0 <==> AtLeastAsRecent(a, b) && AtLeastAsRecent(b, a)
    ensures -1 <= r <= 1
  {
    if AtLeastAsRecent(a, b) && AtLeastAsRecent(b, a) then 0
    else if AtLeastAsRecent(a, b) then -1
    else 1
  }

  /** The corrected comparator is consistent: swapping the arguments flips
      the sign, and "not after" is transitive. */
  lemma CompareByRecencyConsistent(a: Summary, b: Summary, c: Summary)
    ensures CompareByRecency(a, b) == -CompareByRecency(b, a)
    ensures CompareByRecency(a, b) <= 0 && CompareByRecency(b, c) <= 0 ==> CompareByRecency(a, c) <= 0
  {
  }

  /** Where the comparator as written is consistent (two messages at
      different instants) the corrected one agrees with it. */
  lemma CompareByRecencyAgrees(a: Summary, b: Summary)
    requires a.content.Some? && b.content.Some?
    requires a.content.value.createdAt != b.content.value.createdAt
    ensures CompareByRecency(a, b) == CompareAsWritten(a, b)
  {
  }

  ghost predicate SortedByRecency(s: seq<Summary>) {
    forall i, j :: 0 <= i < j < |s| ==> AtLeastAsRecent(s[i], s[j])
  }

  /** Insert `x` before the first summary it is at least as recent as. */
  function Insert(x: Summary, s: seq<Summary>): (r: seq<Summary>)
    requires SortedByRecency(s)
    ensures multiset(r) == multiset(s) + multiset{x}
    ensures SortedByRecency(r)
    decreases |s|
  {
    if |s| == 0 then [x]
    else if AtLeastAsRecent(x, s[0]) then
      assert forall j :: 0 <= j < |s| ==> AtLeastAsRecent(x, s[j]) by {
        AtLeastAsRecentTotalPreorder();
      }
      [x] + s
    else
      var rest := Insert(x, s[1..]);
      assert s == [s[0]] + s[1..];
      HeadAheadOfInsert(x, s, rest);
      ConsSorted(s[0], rest);
      [s[0]] + rest
  }

  /** The head of a sorted list is at least as recent as everything that
      inserting a less recent `x` into its tail gives. */
  lemma HeadAheadOfInsert(x: Summary, s: seq<Summary>, rest: seq<Summary>)
    requires |s| > 0 && SortedByRecency(s) && AtLeastAsRecent(s[0], x)
    requires multiset(rest) == multiset(s[1..]) + multiset{x}
    ensures forall y :: y in rest ==> AtLeastAsRecent(s[0], y)
  {
    forall y | y in rest ensures AtLeastAsRecent(s[0], y) {
      assert y in multiset(rest);
      if y != x {
        assert y in multiset(s[1..]);
        assert y in s[1..];
        var k :| 0 <= k < |s[1..]| && s[1..][k] == y;
        assert s[k + 1] == y;
      }
    }
  }

  /** A summary at least as recent as every element of a sorted list can
      go in front of it. */
  lemma ConsSorted(h: Summary, rest: seq<Summary>)
    requires SortedByRecency(rest)
    requires forall y :: y in rest ==> AtLeastAsRecent(h, y)
    ensures SortedByRecency([h] + rest)
  {
    var r := [h] + rest;
    forall i, j | 0 <= i < j < |r| ensures AtLeastAsRecent(r[i], r[j]) {
      assert r[j] == rest[j - 1];
      if i > 0 { assert r[i] == rest[i - 1]; }
    }
  }

  /** `sort` with the corrected comparator (stable insertion sort). */
  function SortByRecency(s: seq<Summary>): (r: seq<Summary>)
    ensures multiset(r) == multiset(s)
    ensures SortedByRecency(r)
    decreases |s|
  {
    if |s| == 0 then []
    else
      assert s == [s[0]] + s[1..];
      Insert(s[0], SortByRecency(s[1..]))
  }

  /** `getChats`: a summary of every chat of the caller, most recent first
      and chats without messages last. */
  function GetChats(chats: Chats, users: Users, me: Id): (r: seq<Summary>)
    ensures multiset(r) == multiset(Summaries(chats, users, me))
    ensures |r| == |Filter(chats, Involves(me))|
    ensures forall i, j :: 0 <= i < j < |r| && r[i].content.None? ==> r[j].content.None?
    ensures forall i, j :: 0 <= i < j < |r| && r[j].content.Some? ==>
              r[i].content.Some? && r[i].content.value.createdAt >= r[j].content.value.createdAt
  {
    var s := Summaries(chats, users, me);
    var r := SortByRecency(s);
    assert |r| == |multiset(r)| == |multiset(s)| == |s|;
    SortedNewestFirst(r);
    r
  }

  /** A list sorted by recency has the summaries without messages last and
      the others newest first. */
  lemma SortedNewestFirst(r: seq<Summary>)
    requires SortedByRecency(r)
    ensures forall i, j :: 0 <= i < j < |r| && r[i].content.None? ==> r[j].content.None?
    ensures forall i, j :: 0 <= i < j < |r| && r[j].content.Some? ==>
              r[i].content.Some? && r[i].content.value.createdAt >= r[j].content.value.createdAt
  {
    forall i, j | 0 <= i < j < |r| ensures AtLeastAsRecent(r[i], r[j]) {
    }
  }

  // ---------------------------------------------------------------------------
  // getRecentChat

  /** The chat created last; on a tie, the first in collection order. */
  function MostRecent(cs: seq<Chat>): (r: Option<Chat>)
    ensures r.None? <==> |cs| == 0
    ensures r.Some? ==> r.value in cs && forall c :: c in cs ==> c.createdAt <= r.value.createdAt
    decreases |cs|
  {
    if |cs| == 0 then None
    else
      assert cs == [cs[0]] + cs[1..];
      match MostRecent(cs[1..])
      case None => Some(cs[0])
      case Some(m) => if m.createdAt > cs[0].createdAt then Some(m) else Some(cs[0])
  }

  /** `getRecentChat`: the id of the caller's most recently created chat,
      or the empty string when the caller has none. */
  function GetRecentChat(chats: Chats, me: Id): (r: Id)
    ensures (forall c :: c in chats ==> c.user1 != me && c.user2 != me) ==> r == ""
    ensures (exists c :: c in chats && (c.user1 == me || c.user2 == me)) ==>
              exists c :: c in chats && (c.user1 == me || c.user2 == me) && c.id == r &&
                forall d :: d in chats && (d.user1 == me || d.user2 == me) ==> d.createdAt <= c.createdAt
  {
    var mine := Filter(chats, Involves(me));
    match MostRecent(mine)
    case None => ""
    case Some(c) => c.id
  }

  // ---------------------------------------------------------------------------
  // createChat

  /** `createChat`: push the message onto the pair's chat, or create the
      chat with that one message, then look the recipient up. A missing
      recipient fails after the write, which stays. */
  function CreateChat(chats: Chats, users: Users, me: Id, to: Id, message: string, now: int,
                      newId: Id, contentOk: Content -> bool, chatOk: Chat -> bool): (r: Step<Chats, ()>)
    ensures var p := CanonicalPair(me, to);
      var content := Content(me, message, now);
      var created := Chat(newId, p.user1, p.user2, [content], now);
      var parsed := contentOk(content) && chatOk(created);
      && (!parsed ==> r.state == chats && r.result.Err? && r.result.failure.SchemaError?)
      && (parsed ==> (r.result.Ok? <==> to in users))
      && (parsed && to !in users ==> r.result.failure == DatabaseError("toUserUid is incorrect"))
      && (parsed && (exists i :: 0 <= i < |chats| && PairOf(chats[i]) == p) ==>
            && |r.state| == |chats|
            && exists i :: 0 <= i < |chats| && PairOf(chats[i]) == p
                 && (forall j :: 0 <= j < i ==> PairOf(chats[j]) != p)
                 && r.state[i] == chats[i].(contents := r.state[i].contents)
                 && r.state[i].contents == chats[i].contents + [content]
                 && forall j :: 0 <= j < |chats| && j != i ==> r.state[j] == chats[j])
      && (parsed && (forall i :: 0 <= i < |chats| ==> PairOf(chats[i]) != p) ==>
            r.state == chats + [created])
    ensures Canonical(chats) ==> Canonical(r.state)
  {
    var p := CanonicalPair(me, to);
    var content := Content(me, message, now);
    var created := Chat(newId, p.user1, p.user2, [content], now);
    if !(contentOk(content) && chatOk(created)) then Step(chats, Err(SchemaError("invalid chat")))
    else
      var written := match FindFirst(chats, Keyed(p))
        case Some(i) => chats[i := chats[i].(contents := chats[i].contents + [content])]
        case None => chats + [created];
      assert Canonical(chats) ==> Canonical(written) by {
        if Canonical(chats) {
          forall i, j | 0 <= i < j < |written| ensures PairOf(written[i]) != PairOf(written[j]) {
            if j == |chats| {
              assert PairOf(chats[i]) != p;
            } else {
              assert PairOf(written[i]) == PairOf(chats[i]) && PairOf(written[j]) == PairOf(chats[j]);
            }
          }
        }
      }
      if to in users then Step(written, Ok(()))
      else Step(written, Err(DatabaseError("toUserUid is incorrect")))
  }

  /** A message sent with `createChat` (whose schema checks pass) is the
      last message the recipient sees in `getChat`, with the sender as the
      opponent; this holds even when the recipient lookup then fails. */
  lemma SentMessageIsLast(chats: Chats, users: Users, me: Id, to: Id, message: string, now: int,
                          newId: Id, contentOk: Content -> bool, chatOk: Chat -> bool)
    requires contentOk(Content(me, message, now))
    requires chatOk(Chat(newId, CanonicalPair(me, to).user1, CanonicalPair(me, to).user2,
                         [Content(me, message, now)], now))
    ensures var after := CreateChat(chats, users, me, to, message, now, newId, contentOk, chatOk).state;
            var view := GetChat(after, to, me);
            && view.Ok?
            && view.value.opponent == me
            && |view.value.contents| > 0
            && view.value.contents[|view.value.contents| - 1] == Content(me, message, now)
  {
    var p := CanonicalPair(me, to);
    var content := Content(me, message, now);
    var after := CreateChat(chats, users, me, to, message, now, newId, contentOk, chatOk).state;
    CanonicalPairSymmetric(me, to);
    match FindFirst(chats, Keyed(p))
    case Some(i) =>
      assert after == chats[i := chats[i].(contents := chats[i].contents + [content])];
      assert forall j :: 0 <= j < i ==> !Keyed(p)(after[j]) by {
        forall j | 0 <= j < i ensures !Keyed(p)(after[j]) {
          assert after[j] == chats[j];
        }
      }
      assert FindFirst(after, Keyed(p)) == Some(i);
    case None =>
      assert after == chats + [Chat(newId, p.user1, p.user2, [content], now)];
      assert forall j :: 0 <= j < |chats| ==> !Keyed(p)(after[j]) by {
        forall j | 0 <= j < |chats| ensures !Keyed(p)(after[j]) {
          assert after[j] == chats[j];
        }
      }
      assert Keyed(p)(after[|chats|]);
      assert FindFirst(after, Keyed(p)) == Some(|chats|);
  }
}

=== FILE: collections.dfy ===
/** The sequence operations the services perform on collections and on
    embedded arrays: filtering, mapping selected elements, `$addToSet`,
    `findOne`, upsert by key and `deleteOne`.

    A collection is a sequence in its natural order, so `findOne` is the
    first match and `find` is a filter that keeps that order.
 */
module Collections {
  import opened Common

  /** `a` is `b` with some elements left out, the rest in their order. */
  predicate IsSubsequence<T(==,!new)>(a: seq<T>, b: seq<T>)
    decreases |b|
  {
    if |a| == 0 then true
    else if |b| == 0 then false
    else if a[0] == b[0] then IsSubsequence(a[1..], b[1..])
    else IsSubsequence(a, b[1..])
  }

  /** The elements of `s` that satisfy `p`, in their order. */
  function Filter<T(==,!new)>(s: seq<T>, p: T -> bool): (r: seq<T>)
    ensures forall x :: x in r <==> x in s && p(x)
    ensures |r| <= |s|
  {
    if |s| == 0 then []
    else
      assert s == [s[0]] + s[1..];
      var rest := Filter(s[1..], p);
      if p(s[0]) then [s[0]] + rest else rest
  }

  /** A filter keeps every occurrence of a kept element, in the original
      order: it is a subsequence with the same multiplicities. */
  lemma {:induction false} FilterKeepsOrder<T(!new)>(s: seq<T>, p: T -> bool)
    ensures IsSubsequence(Filter(s, p), s)
    ensures forall x :: p(x) ==> multiset(Filter(s, p))[x] == multiset(s)[x]
    decreases |s|
  {
    if |s| > 0 {
      var rest := Filter(s[1..], p);
      FilterKeepsOrder(s[1..], p);
      assert s == [s[0]] + s[1..];
      if p(s[0]) {
        assert ([s[0]] + rest)[1..] == rest;
      } else if |rest| > 0 {
        assert rest[0] in rest;
      }
    }
  }

  /** Filtering distributes over concatenation: the kept elements of the
      first part come first. */
  lemma {:induction false} FilterConcat<T(!new)>(a: seq<T>, b: seq<T>, p: T -> bool)
    ensures Filter(a + b, p) == Filter(a, p) + Filter(b, p)
    decreases |a|
  {
    if |a| == 0 {
      assert a + b == b;
    } else {
      var ab := a + b;
      assert ab[0] == a[0] && ab[1..] == a[1..] + b;
      FilterConcat(a[1..], b, p);
      if p(a[0]) {
        assert Filter(ab, p) == [a[0]] + Filter(a[1..] + b, p);
        assert Filter(a, p) == [a[0]] + Filter(a[1..], p);
      } else {
        assert Filter(ab, p) == Filter(a[1..] + b, p);
        assert Filter(a, p) == Filter(a[1..], p);
      }
    }
  }

  /** A filter that no element fails is the identity. */
  lemma {:induction false} FilterAll<T(!new)>(s: seq<T>, p: T -> bool)
    requires forall x :: x in s ==> p(x)
    ensures Filter(s, p) == s
    decreases |s|
  {
    if |s| > 0 {
      FilterAll(s[1..], p);
    }
  }

  /** Filtering twice by the same predicate filters once. */
  lemma FilterIdempotent<T(!new)>(s: seq<T>, p: T -> bool)
    ensures Filter(Filter(s, p), p) == Filter(s, p)
  {
    var r := Filter(s, p);
    forall i | 0 <= i < |r|
      ensures p(r[i])
    {
      assert r[i] in r;
    }
    FilterAll(r, p);
  }

  /** `s` with every element that satisfies `p` replaced by its image under `f`. */
  function MapWhere<T>(s: seq<T>, p: T -> bool, f: T -> T): (r: seq<T>)
    ensures |r| == |s|
    ensures forall i :: 0 <= i < |s| && !p(s[i]) ==> r[i] == s[i]
    ensures forall i :: 0 <= i < |s| && p(s[i]) ==> r[i] == f(s[i])
  {
    seq(|s|, i requires 0 <= i < |s| => if p(s[i]) then f(s[i]) else s[i])
  }

  /** `$addToSet`: append `x` unless an equal element is already there. */
  function AddToSet<T(==,!new)>(s: seq<T>, x: T): (r: seq<T>)
    ensures s <= r && |r| <= |s| + 1
    ensures forall y :: y in r <==> y in s || y == x
    ensures x in s ==> r == s
  {
    if x in s then s else s + [x]
  }

  /** Adding the same element twice is adding it once. */
  lemma AddToSetIdempotent<T(!new)>(s: seq<T>, x: T)
    ensures AddToSet(AddToSet(s, x), x) == AddToSet(s, x)
  {
  }

  /** Index of the first element satisfying `p` at or after `from`. */
  function FindFrom<T>(s: seq<T>, p: T -> bool, from: nat): (r: Option<nat>)
    requires from <= |s|
    ensures r.Some? ==> from <= r.value < |s| && p(s[r.value])
    ensures r.Some? ==> forall j :: from <= j < r.value ==> !p(s[j])
    ensures r.None? ==> forall j :: from <= j < |s| ==> !p(s[j])
    decreases |s| - from
  {
    if from == |s| then None
    else if p(s[from]) then Some(from)
    else FindFrom(s, p, from + 1)
  }

  /** `findOne`: the index of the first element satisfying `p`, if any. */
  function FindFirst<T>(s: seq<T>, p: T -> bool): (r: Option<nat>)
    ensures r.Some? ==> r.value < |s| && p(s[r.value])
    ensures r.Some? ==> forall j :: 0 <= j < r.value ==> !p(s[j])
    ensures r.None? <==> forall j :: 0 <= j < |s| ==> !p(s[j])
  {
    FindFrom(s, p, 0)
  }

  /** No two elements of `s` share a key. */
  ghost predicate UniqueKeys<T, K>(s: seq<T>, key: T -> K) {
    forall i, j :: 0 <= i < j < |s| ==> key(s[i]) != key(s[j])
  }

  /** An upsert keyed by `key`, as `findOneAndUpdate(filter, update,
      { upsert: true })` performs it: the first element with `x`'s key is
      replaced by `merge(old, x)`, the update applied to the stored
      element; when there is none, `x` is appended. */
  function Upsert<T(==,!new), K(==)>(s: seq<T>, x: T, key: T -> K, merge: (T, T) -> T): (r: seq<T>)
    requires forall y :: key(merge(y, x)) == key(x)
    ensures (forall j :: 0 <= j < |s| ==> key(s[j]) != key(x)) ==> r == s + [x]
    ensures (exists j :: 0 <= j < |s| && key(s[j]) == key(x)) ==>
              exists i :: 0 <= i < |s| && key(s[i]) == key(x)
                && (forall j :: 0 <= j < i ==> key(s[j]) != key(x))
                && r == s[i := merge(s[i], x)]
    ensures forall y :: y in s && key(y) != key(x) ==> y in r
    ensures forall y :: y in r && key(y) != key(x) ==> y in s
    ensures UniqueKeys(s, key) ==> UniqueKeys(r, key)
  {
    match FindFirst(s, y => key(y) == key(x))
    case Some(i) =>
      var r := s[i := merge(s[i], x)];
      assert forall y :: y in r && key(y) != key(x) ==> y in s by {
        forall y | y in r && key(y) != key(x) ensures y in s {
          var k :| 0 <= k < |r| && r[k] == y;
          assert k != i && y == s[k];
        }
      }
      assert forall y :: y in s && key(y) != key(x) ==> y in r by {
        forall y | y in s && key(y) != key(x) ensures y in r {
          var k :| 0 <= k < |s| && s[k] == y;
          assert k != i && r[k] == y;
        }
      }
      r
    case None =>
      var r := s + [x];
      assert UniqueKeys(s, key) ==> UniqueKeys(r, key) by {
        if UniqueKeys(s, key) {
          forall i, j | 0 <= i < j < |r| ensures key(r[i]) != key(r[j]) {
            if j == |s| { assert key(s[i]) != key(x); }
          }
        }
      }
      r
  }

  /** With unique keys, the element an upsert leaves under `x`'s key is
      `x` applied to the element stored there before, or `x` itself when
      there was none. */
  lemma UpsertedElement<T(!new), K>(s: seq<T>, x: T, key: T -> K, merge: (T, T) -> T)
    requires forall y :: key(merge(y, x)) == key(x)
    requires UniqueKeys(s, key)
    ensures exists y :: y in Upsert(s, x, key, merge) && key(y) == key(x)
    ensures forall y, z :: y in Upsert(s, x, key, merge) && key(y) == key(x) && z in s && key(z) == key(x) ==>
              y == merge(z, x)
    ensures (forall z :: z in s ==> key(z) != key(x)) ==>
              forall y :: y in Upsert(s, x, key, merge) && key(y) == key(x) ==> y == x
  {
    var r := Upsert(s, x, key, merge);
    if exists j :: 0 <= j < |s| && key(s[j]) == key(x) {
      var i :| 0 <= i < |s| && key(s[i]) == key(x) && r == s[i := merge(s[i], x)];
      assert r[i] in r;
      forall y, z | y in r && key(y) == key(x) && z in s && key(z) == key(x) ensures y == merge(z, x) {
        var k :| 0 <= k < |r| && r[k] == y;
        var m :| 0 <= m < |s| && s[m] == z;
        assert k == i && m == i;
      }
    } else {
      assert r == s + [x] && r[|s|] == x;
      forall y | y in r && key(y) == key(x) ensures y == x {
        var k :| 0 <= k < |r| && r[k] == y;
        assert k == |s|;
      }
    }
  }

  /** Leaving elements out keeps keys unique. */
  lemma {:induction false} SubsequenceUniqueKeys<T(!new), K>(a: seq<T>, b: seq<T>, key: T -> K)
    requires IsSubsequence(a, b) && UniqueKeys(b, key)
    ensures UniqueKeys(a, key)
    decreases |b|
  {
    if |a| > 0 && |b| > 0 {
      assert UniqueKeys(b[1..], key) by {
        forall i, j | 0 <= i < j < |b[1..]| ensures key(b[1..][i]) != key(b[1..][j]) {
          assert b[1..][i] == b[i + 1] && b[1..][j] == b[j + 1];
        }
      }
      if a[0] == b[0] {
        SubsequenceUniqueKeys(a[1..], b[1..], key);
        SubsequenceMembers(a[1..], b[1..]);
        forall i, j | 0 <= i < j < |a| ensures key(a[i]) != key(a[j]) {
          if i == 0 {
            assert a[j] == a[1..][j - 1];
            assert a[j] in b[1..];
            var k :| 0 <= k < |b[1..]| && b[1..][k] == a[j];
            assert b[k + 1] == a[j];
          } else {
            assert a[i] == a[1..][i - 1] && a[j] == a[1..][j - 1];
          }
        }
      } else {
        SubsequenceUniqueKeys(a, b[1..], key);
      }
    }
  }

  /** A subsequence holds only elements of the whole. */
  lemma {:induction false} SubsequenceMembers<T(!new)>(a: seq<T>, b: seq<T>)
    requires IsSubsequence(a, b)
    ensures forall x :: x in a ==> x in b
    decreases |b|
  {
    if |a| > 0 && |b| > 0 {
      if a[0] == b[0] {
        SubsequenceMembers(a[1..], b[1..]);
        assert forall x :: x in a ==> x == a[0] || x in a[1..] by {
          assert a == [a[0]] + a[1..];
        }
      } else {
        SubsequenceMembers(a, b[1..]);
      }
      assert forall x :: x in b[1..] ==> x in b;
    }
  }

  /** At most one element of `s` satisfies `p`. */
  ghost predicate AtMostOne<T>(s: seq<T>, p: T -> bool) {
    forall i, j :: 0 <= i < j < |s| && p(s[i]) ==> !p(s[j])
  }

  /** `deleteOne`: remove the first element satisfying `p`, if any. */
  function RemoveFirst<T(==,!new)>(s: seq<T>, p: T -> bool): (r: seq<T>)
    ensures (exists i :: 0 <= i < |s| && p(s[i])) ==> |r| == |s| - 1
    ensures (forall i :: 0 <= i < |s| ==> !p(s[i])) ==> r == s
    ensures forall y :: y in r ==> y in s
    ensures forall y :: y in s && !p(y) ==> y in r
    ensures AtMostOne(s, p) ==> forall y :: y in r ==> !p(y)
    ensures (exists i :: 0 <= i < |s| && p(s[i])) ==>
              exists i :: 0 <= i < |s| && p(s[i])
                && (forall j :: 0 <= j < i ==> !p(s[j]))
                && r == s[..i] + s[i + 1..]
    ensures forall y :: !p(y) ==> multiset(r)[y] == multiset(s)[y]
  {
    match FindFirst(s, p)
    case None => s
    case Some(i) =>
      RemoveAt(s, p, i);
      s[..i] + s[i + 1..]
  }

  /** Removing one matching element keeps every other element, with its
      multiplicity, and adds nothing. */
  lemma RemoveAt<T>(s: seq<T>, p: T -> bool, i: nat)
    requires i < |s| && p(s[i])
    ensures var r := s[..i] + s[i + 1..];
      && (forall y :: y in r ==> y in s)
      && (forall y :: y in s && !p(y) ==> y in r)
      && (AtMostOne(s, p) ==> forall y :: y in r ==> !p(y))
      && (forall y :: !p(y) ==> multiset(r)[y] == multiset(s)[y])
  {
    var r := s[..i] + s[i + 1..];
    assert s == s[..i] + [s[i]] + s[i + 1..];
    assert multiset(s) == multiset(r) + multiset{s[i]};
    forall y | y in s && !p(y) ensures y in r {
      var k :| 0 <= k < |s| && s[k] == y;
      if k < i { assert r[k] == y; } else { assert k > i && r[k - 1] == y; }
    }
    if AtMostOne(s, p) {
      forall y | y in r ensures !p(y) {
        var k :| 0 <= k < |r| && r[k] == y;
        if k < i { assert y == s[k]; } else { assert y == s[k + 1]; }
      }
    }
  }

  /** The predicate that holds exactly where `p` does not. */
  function Negate<T(!new)>(p: T -> bool): (q: T -> bool)
    ensures forall x :: q(x) == !p(x)
  {
    x => !p(x)
  }

  /** Filtering out the one element that fails the predicate keeps what
      stands on either side of it. */
  lemma {:induction false} FilterOneOut<T(!new)>(a: seq<T>, x: T, c: seq<T>, q: T -> bool)
    requires !q(x)
    requires forall y :: y in a ==> q(y)
    requires forall y :: y in c ==> q(y)
    ensures Filter(a + [x] + c, q) == a + c
    decreases |a|
  {
    var s := a + [x] + c;
    if |a| == 0 {
      assert s == [x] + c && s[1..] == c;
      FilterAll(c, q);
    } else {
      assert s[0] == a[0] && q(a[0]);
      assert s[1..] == a[1..] + [x] + c;
      FilterOneOut(a[1..], x, c, q);
      assert a + c == [a[0]] + (a[1..] + c);
    }
  }

  /** When `s[i]` is the only match, filtering the matches out removes
      just that element. */
  lemma FilterOutOnlyMatch<T(!new)>(s: seq<T>, p: T -> bool, i: nat)
    requires AtMostOne(s, p)
    requires i < |s| && p(s[i])
    ensures Filter(s, Negate(p)) == s[..i] + s[i + 1..]
  {
    var a, c := s[..i], s[i + 1..];
    assert s == a + [s[i]] + c;
    assert forall y :: y in a ==> !p(y) by {
      forall y | y in a ensures !p(y) {
        var k :| 0 <= k < |a| && a[k] == y;
        assert y == s[k];
      }
    }
    assert forall y :: y in c ==> !p(y) by {
      forall y | y in c ensures !p(y) {
        var k :| 0 <= k < |c| && c[k] == y;
        assert y == s[i + 1 + k];
      }
    }
    FilterOneOut(a, s[i], c, Negate(p));
  }

  /** When at most one element matches, `deleteOne` and a filter agree. */
  lemma RemoveFirstIsFilter<T(!new)>(s: seq<T>, p: T -> bool)
    requires AtMostOne(s, p)
    ensures RemoveFirst(s, p) == Filter(s, Negate(p))
  {
    match FindFirst(s, p)
    case None => FilterAll(s, Negate(p));
    case Some(i) => FilterOutOnlyMatch(s, p, i);
  }
}

=== FILE: common.dfy ===
/** Values, failures and results shared by the four services.

    The services are written against a document store and a dynamically
    typed request body. This module fixes the few JavaScript notions they
    rely on: which values are truthy, which are "present" (neither null nor
    undefined), the error kinds they throw, and the shape of a step that
    may change the store and then succeed or fail.
 */
module Common {

  /** An identifier as the services compare it: the string form of an id. */
  type Id = string

  datatype Option<+T> = None | Some(value: T)

  /** The JavaScript values the services inspect. A number is a real, so
      NaN is not representable; an object or array is opaque and truthy. */
  datatype JsValue =
    | Undefined
    | Null
    | Bool(b: bool)
    | Num(x: real)
    | Str(s: string)
    | Obj(ref: nat)

  /** JavaScript truthiness: `if (v)` takes the branch exactly when this holds. */
  predicate Truthy(v: JsValue) {
    match v
    case Undefined => false
    case Null => false
    case Bool(b) => b
    case Num(x) => x != 0.0
    case Str(s) => |s| > 0
    case Obj(_) => true
  }

  /** `v !== undefined && v !== null` */
  predicate Present(v: JsValue) {
    !v.Undefined? && !v.Null?
  }

  lemma TruthyIsPresent(v: JsValue)
    ensures Truthy(v) ==> Present(v)
    ensures !Present(v) ==> !Truthy(v)
  {
  }

  /** The error kinds the services throw. `SchemaError` is a failed schema
      parse; the other three are the repository's own error classes and the
      built-in `Error`. */
  datatype Failure =
    | DatabaseError(message: string)
    | ValidationError(message: string)
    | SchemaError(message: string)
    | PlainError(message: string)
  {
    function Name(): string {
      match this
      case DatabaseError(_) => "DatabaseError"
      case ValidationError(_) => "ValidationError"
      case SchemaError(_) => "ZodError"
      case PlainError(_) => "Error"
    }

    /** The string an error converts to (`String(err)`): its name, then
        a colon and its message when the message is not empty. */
    function Text(): (t: string)
      ensures Name() <= t
      ensures |message| > 0 ==> |message| < |t| && t[|t| - |message|..] == message
    {
      if |message| == 0 then Name() else Name() + ": " + message
    }
  }

  /** `throw new Error(err)`: the caught failure becomes a plain error whose
      message is the caught failure's string form. */
  function Rewrap(f: Failure): (r: Failure)
    ensures r.PlainError?
    ensures f.Name() <= r.message
    ensures |f.message| > 0 ==>
              |f.message| < |r.message| && r.message[|r.message| - |f.message|..] == f.message
  {
    PlainError(f.Text())
  }

  datatype Result<+T> = Ok(value: T) | Err(failure: Failure)

  /** One request against a store: the store afterwards and the reply.
      A failed request may still have changed the store. */
  datatype Step<S, T> = Step(state: S, result: Result<T>)
}

=== FILE: lex.dfy ===
/** The lexicographic order on strings: by character, with a proper prefix
    before any of its extensions. JavaScript's `<` and `>` compare UTF-16
    code units; for strings whose characters all lie below U+10000 (every
    id the store issues is ASCII) each character is one code unit and the
    two orders coincide.

    Dafny's own `<` on sequences means "proper prefix", so the order is
    defined here from scratch and shown to be a strict total order.
 */
module Lex {

  predicate Less(a: string, b: string)
    decreases |a|
  {
    if |a| == 0 then |b| > 0
    else if |b| == 0 then false
    else if a[0] != b[0] then a[0] < b[0]
    else Less(a[1..], b[1..])
  }

  predicate LessEq(a: string, b: string) {
    a == b || Less(a, b)
  }

  lemma {:induction false} LessIrreflexive(a: string)
    ensures !Less(a, a)
    decreases |a|
  {
    if |a| > 0 {
      LessIrreflexive(a[1..]);
    }
  }

  lemma {:induction false} LessAsymmetric(a: string, b: string)
    ensures Less(a, b) ==> !Less(b, a)
    decreases |a|
  {
    if |a| > 0 && |b| > 0 && a[0] == b[0] {
      LessAsymmetric(a[1..], b[1..]);
    }
  }

  lemma {:induction false} LessTotal(a: string, b: string)
    ensures a != b ==> Less(a, b) || Less(b, a)
    decreases |a|
  {
    if |a| > 0 && |b| > 0 && a[0] == b[0] {
      if a[1..] == b[1..] {
        assert a == [a[0]] + a[1..] && b == [b[0]] + b[1..];
      }
      LessTotal(a[1..], b[1..]);
    }
  }

  lemma {:induction false} LessTransitive(a: string, b: string, c: string)
    requires Less(a, b) && Less(b, c)
    ensures Less(a, c)
    decreases |a|
  {
    if |a| > 0 && a[0] == b[0] && b[0] == c[0] {
      LessTransitive(a[1..], b[1..], c[1..]);
    }
  }

  /** Exactly one of `a < b`, `a == b`, `b < a` holds. */
  lemma Trichotomy(a: string, b: string)
    ensures Less(a, b) || a == b || Less(b, a)
    ensures !(Less(a, b) && Less(b, a))
    ensures a == b ==> !Less(a, b)
  {
    LessTotal(a, b);
    LessAsymmetric(a, b);
    LessIrreflexive(a);
  }

  /** The common-prefix reading of the order: `a < b` exactly when, after
      the longest common prefix, `a` has run out and `b` has not, or `a`'s
      next character is the smaller. */
  lemma {:induction false} LessByPrefix(a: string, b: string, k: nat)
    requires k <= |a| && k <= |b| && a[..k] == b[..k]
    requires k == |a| || k == |b| || a[k] != b[k]
    ensures Less(a, b) <==> (k == |a| && k < |b|) || (k < |a| && k < |b| && a[k] < b[k])
    decreases k
  {
    if k > 0 {
      assert a[0] == a[..k][0] == b[..k][0] == b[0];
      assert a[1..][..k - 1] == a[..k][1..] == b[..k][1..] == b[1..][..k - 1];
      LessByPrefix(a[1..], b[1..], k - 1);
    }
  }
}

=== FILE: place.dfy ===
/** Place validation of `PlaceService`.

    A place record's fields arrive untyped from the request, so every field
    is a `JsValue`. The collection is a sequence in natural order, each
    stored place carrying the id the store gave it. The schema parse is a
    predicate parameter; the current time's text and the new id are
    parameters.
 */
module PlaceService {
  import opened Common
  import opened Collections

  datatype PlaceData = PlaceData(
    status: JsValue,
    fullname: JsValue,
    brand: JsValue,
    branch: JsValue,
    image: JsValue,
    latitude: JsValue,
    longitude: JsValue,
    location: JsValue,
    coverImage: JsValue,
    locationDetail: JsValue,
    time: JsValue,
    registerDate: JsValue,
    registrant: JsValue,
    mapURL: JsValue)

  datatype Place = Place(id: Id, data: PlaceData)

  type Places = seq<Place>

  const StatusList: seq<string> := ["active", "inactive"]

  // ---------------------------------------------------------------------------
  // getActivePlace

  function WithStatus(status: string): (p: Place -> bool)
    ensures forall x :: p(x) <==> x.data.status == Str(status)
  {
    (x: Place) => x.data.status == Str(status)
  }

  /** `getActivePlace`: `find({ status })`. */
  function GetActivePlace(places: Places, status: string): (r: Places)
    ensures forall x :: x in r <==> x in places && x.data.status == Str(status)
    ensures IsSubsequence(r, places)
    ensures forall x :: x in places && x.data.status == Str(status) ==>
              multiset(r)[x] == multiset(places)[x]
  {
    FilterKeepsOrder(places, WithStatus(status));
    Filter(places, WithStatus(status))
  }

  /** Every place is active or inactive, so the two queries split the
      collection between them. */
  lemma ActiveAndInactivePartition(places: Places)
    requires forall x :: x in places ==> x.data.status == Str("active") || x.data.status == Str("inactive")
    ensures |GetActivePlace(places, "active")| + |GetActivePlace(places, "inactive")| == |places|
  {
    PartitionCount(places, WithStatus("active"), WithStatus("inactive"));
  }

  lemma {:induction false} PartitionCount(s: Places, p: Place -> bool, q: Place -> bool)
    requires forall x :: x in s ==> (p(x) <==> !q(x))
    ensures |Filter(s, p)| + |Filter(s, q)| == |s|
    decreases |s|
  {
    if |s| > 0 {
      assert s[0] in s;
      assert forall x :: x in s[1..] ==> x in s;
      PartitionCount(s[1..], p, q);
    }
  }

  // ---------------------------------------------------------------------------
  // addPlace

  /** The ten fields `addPlace` requires to be truthy. A latitude or a
      longitude of 0 counts as missing. */
  predicate RequiredPresent(d: PlaceData) {
    && Truthy(d.fullname)
    && Truthy(d.brand)
    && Truthy(d.branch)
    && Truthy(d.image)
    && Truthy(d.latitude)
    && Truthy(d.longitude)
    && Truthy(d.location)
    && Truthy(d.coverImage)
    && Truthy(d.locationDetail)
    && Truthy(d.mapURL)
  }

  const RequiredMessage: string :=
    "fullname ||brand ||branch ||image ||latitude ||longitude ||location ||coverImage ||locationDetail ||mapURL not exist"

  /** The record `addPlace` validates: defaults for a missing time and
      registration date, and the status and registrant forced. */
  function Prepare(d: PlaceData, me: Id, nowText: string): (p: PlaceData)
    ensures p.status == Str("inactive") && p.registrant == Str(me)
    ensures p.time == (if Truthy(d.time) then d.time else Str("unknown"))
    ensures p.registerDate == (if Truthy(d.registerDate) then d.registerDate else Str(nowText))
    ensures p.(status := d.status, registrant := d.registrant, time := d.time, registerDate := d.registerDate) == d
  {
    var withTime := if !Truthy(d.time) then d.(time := Str("unknown")) else d;
    var withDate := if !Truthy(d.registerDate) then withTime.(registerDate := Str(nowText)) else withTime;
    withDate.(status := Str("inactive"), registrant := Str(me))
  }

  /** `addPlace`: create the prepared record when every required field is
      present and the schema accepts it. Every failure is rethrown as a
      plain `Error` wrapping the original one. */
  function AddPlace(places: Places, me: Id, d: PlaceData, nowText: string, newId: Id,
                    schemaOk: PlaceData -> bool): (r: Step<Places, ()>)
    ensures r.result.Ok? <==> RequiredPresent(d) && schemaOk(Prepare(d, me, nowText))
    ensures r.result.Err? ==> r.state == places && r.result.failure.PlainError?
    ensures !RequiredPresent(d) ==> r.result == Err(Rewrap(ValidationError(RequiredMessage)))
    ensures r.result.Ok? ==> r.state == places + [Place(newId, Prepare(d, me, nowText))]
    ensures r.result.Ok? ==>
      && |r.state| == |places| + 1
      && r.state[..|places|] == places
      && r.state[|places|].id == newId
      && r.state[|places|].data.status == Str("inactive")
      && r.state[|places|].data.registrant == Str(me)
      && r.state[|places|].data.fullname == d.fullname
  {
    if !RequiredPresent(d) then Step(places, Err(Rewrap(ValidationError(RequiredMessage))))
    else
      var prepared := Prepare(d, me, nowText);
      if !schemaOk(prepared) then Step(places, Err(Rewrap(SchemaError("invalid place"))))
      else Step(places + [Place(newId, prepared)], Ok(()))
  }

  /** A created place is inactive until `updateStatus` promotes it, so it is
      never among the active places it was added to. */
  lemma AddedPlaceNotActive(places: Places, me: Id, d: PlaceData, nowText: string, newId: Id,
                            schemaOk: PlaceData -> bool)
    requires AddPlace(places, me, d, nowText, newId, schemaOk).result.Ok?
    ensures var after := AddPlace(places, me, d, nowText, newId, schemaOk).state;
            GetActivePlace(after, "active") == GetActivePlace(places, "active")
  {
    var after := AddPlace(places, me, d, nowText, newId, schemaOk).state;
    var added := Place(newId, Prepare(d, me, nowText));
    assert after == places + [added];
    FilterConcat(places, [added], WithStatus("active"));
    assert [added][1..] == [];
  }

  // ---------------------------------------------------------------------------
  // updateStatus

  function HasId(id: Id): (p: Place -> bool)
    ensures forall x :: p(x) <==> x.id == id
  {
    (x: Place) => x.id == id
  }

  /** `updateStatus`: reject a status outside the list, then
      `updateOne({ _id }, { status })`, failing when nothing was modified. */
  function UpdateStatus(places: Places, id: Id, status: JsValue): (r: Step<Places, ()>)
    ensures !(status.Str? && status.s in StatusList) ==>
              r == Step(places, Err(ValidationError("wrong status")))
    ensures r.result.Err? ==> r.state == places
    ensures r.result.Ok? <==>
      && status.Str? && status.s in StatusList
      && exists i :: 0 <= i < |places| && places[i].id == id
           && (forall j :: 0 <= j < i ==> places[j].id != id)
           && places[i].data.status != status
    ensures status.Str? && status.s in StatusList && r.result.Err? ==>
              r.result.failure == DatabaseError("update failed")
    ensures r.result.Ok? ==>
      && |r.state| == |places|
      && exists i :: 0 <= i < |places| && places[i].id == id
           && (forall j :: 0 <= j < i ==> places[j].id != id)
           && r.state[i] == places[i].(data := places[i].data.(status := status))
           && forall j :: 0 <= j < |places| && j != i ==> r.state[j] == places[j]
  {
    if !(status.Str? && status.s in StatusList) then Step(places, Err(ValidationError("wrong status")))
    else
      match FindFirst(places, HasId(id))
      case None => Step(places, Err(DatabaseError("update failed")))
      case Some(i) =>
        if places[i].data.status == status then Step(places, Err(DatabaseError("update failed")))
        else Step(places[i := places[i].(data := places[i].data.(status := status))], Ok(()))
  }

  /** Setting a place to the status it already has is reported as a failure. */
  lemma UpdateToSameStatusFails(places: Places, i: nat)
    requires i < |places| && places[i].data.status.Str? && places[i].data.status.s in StatusList
    requires forall j :: 0 <= j < i ==> places[j].id != places[i].id
    ensures UpdateStatus(places, places[i].id, places[i].data.status) ==
              Step(places, Err(DatabaseError("update failed")))
  {
  }

  /** After a successful `updateStatus` the place is listed under its new
      status. */
  lemma UpdatedPlaceListedUnderNewStatus(places: Places, id: Id, status: string)
    requires UpdateStatus(places, id, Str(status)).result.Ok?
    ensures var after := UpdateStatus(places, id, Str(status)).state;
            exists x :: x in GetActivePlace(after, status) && x.id == id
  {
    var after := UpdateStatus(places, id, Str(status)).state;
    var i :| 0 <= i < |places| && places[i].id == id
             && after[i] == places[i].(data := places[i].data.(status := Str(status)));
    assert after[i] in after;
  }
}

=== FILE: realtime.dfy ===
/** The per-day attendance list of `RealtimeService`.

    The store holds one day document per local midnight; a day document
    holds `userList`, the per-user entries. Each operation is one atomic
    step on the store. The clock is a parameter: `now` in milliseconds and
    the local time zone's `offset` from UTC, so that today's key is
    `Today(now, offset)`. Schema validation (the entry schema on insert,
    the document schema on save) is a predicate parameter.
 */
module RealtimeService {
  import opened Common
  import opened Collections

  const DayMs: int := 86_400_000

  datatype TimeWindow = TimeWindow(start: JsValue, end: JsValue)

  datatype Comment = Comment(text: string)

  /** One user's entry for the day. `rest` holds the fields no operation
      here reads or writes (place, image, arrival time, ...). */
  datatype Entry = Entry(
    user: Id,
    status: JsValue,
    time: Option<TimeWindow>,
    comment: Option<Comment>,
    rest: map<string, JsValue>)

  datatype Day = Day(date: int, userList: seq<Entry>)

  /** The collection, keyed by the day's date. */
  type Store = map<int, Day>

  /** Every document sits under its own date. */
  ghost predicate WellKeyed(store: Store) {
    forall d :: d in store ==> store[d].date == d
  }

  /** Selects the caller's entries, as the array filter `elem.user` does. */
  function CallersOf(caller: Id): (p: Entry -> bool)
    ensures forall e :: p(e) <==> e.user == caller
  {
    (e: Entry) => e.user == caller
  }

  /** Selects the other users' entries. */
  function OthersOf(caller: Id): (p: Entry -> bool)
    ensures forall e :: p(e) <==> e.user != caller
  {
    (e: Entry) => e.user != caller
  }

  predicate HasEntry(list: seq<Entry>, caller: Id) {
    exists i :: 0 <= i < |list| && list[i].user == caller
  }

  // ---------------------------------------------------------------------------
  // getToday, getTodayData

  /** `getToday`: the instant of local midnight that starts the day of `now`. */
  function Today(now: int, offset: int): (midnight: int)
    ensures (midnight + offset) % DayMs == 0
    ensures midnight <= now < midnight + DayMs
  {
    now - (now + offset) % DayMs
  }

  /** Only one local midnight lies in the day before any instant. */
  lemma MidnightUnique(now: int, offset: int, m: int)
    requires (m + offset) % DayMs == 0
    requires m <= now < m + DayMs
    ensures m == Today(now, offset)
  {
    var t := Today(now, offset);
    var a, b := m + offset, t + offset;
    assert a == DayMs * (a / DayMs);
    assert b == DayMs * (b / DayMs);
    assert -DayMs < a - b < DayMs;
    var q := a / DayMs - b / DayMs;
    assert a - b == DayMs * q;
  }

  /** Truncating to midnight twice is truncating once. */
  lemma TodayIdempotent(now: int, offset: int)
    ensures Today(Today(now, offset), offset) == Today(now, offset)
  {
    var m := Today(now, offset);
    MidnightUnique(m, offset, m);
  }

  datatype Loaded = Loaded(store: Store, day: Day)

  /** `getTodayData`: today's document, created with only its date set
      when the store has none. */
  function GetTodayData(store: Store, today: int): (r: Loaded)
    ensures today in r.store && r.store[today] == r.day
    ensures today in store ==> r.store == store
    ensures today !in store ==> r.day == Day(today, []) && r.store == store[today := r.day]
    ensures WellKeyed(store) ==> WellKeyed(r.store)
  {
    if today in store then Loaded(store, store[today])
    else
      var day := Day(today, []);
      Loaded(store[today := day], day)
  }

  /** Loading twice is loading once. */
  lemma GetTodayDataIdempotent(store: Store, today: int)
    ensures GetTodayData(GetTodayData(store, today).store, today) == GetTodayData(store, today)
  {
  }

  // ---------------------------------------------------------------------------
  // createBasicVote

  /** The entry `createBasicVote` builds: the request's fields, with the
      status and the user overwritten. */
  function BasicVoteEntry(input: Entry, caller: Id): (e: Entry)
    ensures e.status == Str("pending") && e.user == caller
    ensures e.time == input.time && e.comment == input.comment && e.rest == input.rest
  {
    input.(status := Str("pending"), user := caller)
  }

  /** `createBasicVote`: upsert today's document and `$addToSet` the
      caller's pending entry into its list. */
  function CreateBasicVote(store: Store, today: int, caller: Id, input: Entry,
                           schemaOk: Entry -> bool): (r: Step<Store, Day>)
    ensures r.result.Ok? <==> schemaOk(BasicVoteEntry(input, caller))
    ensures r.result.Err? ==> r.state == store && r.result.failure.SchemaError?
    ensures r.result.Ok? ==>
      var e := BasicVoteEntry(input, caller);
      var before := if today in store then store[today].userList else [];
      && today in r.state && r.state[today] == r.result.value
      && r.result.value.date == today
      && before <= r.result.value.userList
      && |r.result.value.userList| <= |before| + 1
      && (forall x :: x in r.result.value.userList <==> x in before || x == e)
      && (e in before ==> r.result.value.userList == before)
      && (forall d :: d != today ==> (d in r.state <==> d in store))
      && (forall d :: d != today && d in store ==> r.state[d] == store[d])
    ensures WellKeyed(store) ==> WellKeyed(r.state)
  {
    var e := BasicVoteEntry(input, caller);
    if !schemaOk(e) then Step(store, Err(SchemaError("invalid entry")))
    else
      var list := if today in store then store[today].userList else [];
      var day := Day(today, AddToSet(list, e));
      Step(store[today := day], Ok(day))
  }

  /** Casting the same basic vote twice leaves the store as casting it once. */
  lemma CreateBasicVoteIdempotent(store: Store, today: int, caller: Id, input: Entry,
                                  schemaOk: Entry -> bool)
    ensures var once := CreateBasicVote(store, today, caller, input, schemaOk);
            CreateBasicVote(once.state, today, caller, input, schemaOk).state == once.state
  {
    var e := BasicVoteEntry(input, caller);
    if schemaOk(e) {
      var list := if today in store then store[today].userList else [];
      AddToSetIdempotent(list, e);
    }
  }

  /** `$addToSet` only skips an identical entry: two basic votes of the
      same user that differ in any other field both stay in the list. */
  lemma BasicVotesOfOneUserAccumulate(store: Store, today: int, caller: Id, a: Entry, b: Entry,
                                      schemaOk: Entry -> bool)
    requires schemaOk(BasicVoteEntry(a, caller)) && schemaOk(BasicVoteEntry(b, caller))
    ensures var first := CreateBasicVote(store, today, caller, a, schemaOk).state;
            var second := CreateBasicVote(first, today, caller, b, schemaOk).state;
            && today in second
            && BasicVoteEntry(a, caller) in second[today].userList
            && BasicVoteEntry(b, caller) in second[today].userList
            && BasicVoteEntry(a, caller).user == BasicVoteEntry(b, caller).user == caller
  {
  }

  // ---------------------------------------------------------------------------
  // updateStudy

  const ElemPrefix: string := "userList.$[elem]."

  /** Object keys are distinct. */
  predicate DistinctKeys(data: seq<(string, JsValue)>) {
    forall i, j :: 0 <= i < j < |data| ==> data[i].0 != data[j].0
  }

  lemma PrefixInjective(p: string, a: string, b: string)
    ensures a != b ==> p + a != p + b
  {
    assert a == (p + a)[|p|..];
    assert b == (p + b)[|p|..];
  }

  /** The `$set` document `updateStudy` builds from the request's fields,
      in `Object.keys` order: one key per field whose value is neither
      null nor undefined, prefixed to address the matched list element. */
  function UpdateFields(data: seq<(string, JsValue)>): (fields: map<string, JsValue>)
    requires DistinctKeys(data)
    ensures forall i :: 0 <= i < |data| && Present(data[i].1) ==>
              ElemPrefix + data[i].0 in fields && fields[ElemPrefix + data[i].0] == data[i].1
    ensures forall k :: k in fields ==>
              exists i :: 0 <= i < |data| && Present(data[i].1) && k == ElemPrefix + data[i].0
    decreases |data|
  {
    if |data| == 0 then map[]
    else
      var init := data[..|data| - 1];
      var (key, value) := data[|data| - 1];
      assert forall i :: 0 <= i < |init| ==> init[i] == data[i];
      var fields := UpdateFields(init);
      if Present(value) then
        assert forall i :: 0 <= i < |init| ==> ElemPrefix + init[i].0 != ElemPrefix + key by {
          forall i | 0 <= i < |init|
            ensures ElemPrefix + init[i].0 != ElemPrefix + key
          {
            PrefixInjective(ElemPrefix, init[i].0, key);
          }
        }
        fields[ElemPrefix + key := value]
      else
        fields
  }

  /** A field left null or undefined never reaches the update. */
  lemma UpdateFieldsSkipsAbsent(data: seq<(string, JsValue)>, i: nat)
    requires DistinctKeys(data) && i < |data| && !Present(data[i].1)
    ensures ElemPrefix + data[i].0 !in UpdateFields(data)
  {
    forall j | 0 <= j < |data| && j != i
      ensures ElemPrefix + data[j].0 != ElemPrefix + data[i].0
    {
      PrefixInjective(ElemPrefix, data[j].0, data[i].0);
    }
  }

  /** `updateStudy`: apply the `$set` document to every entry of the caller
      in today's document. `apply` is the store's `$set` on one element.
      Fails with a database error, changing nothing, when no document for
      today holds an entry of the caller. */
  function UpdateStudy(store: Store, today: int, caller: Id, data: seq<(string, JsValue)>,
                       apply: (Entry, map<string, JsValue>) -> Entry): (r: Step<Store, Day>)
    requires DistinctKeys(data)
    ensures r.result.Err? <==> !(today in store && HasEntry(store[today].userList, caller))
    ensures r.result.Err? ==> r.state == store && r.result.failure == DatabaseError("Failed to update study")
    ensures r.result.Ok? ==>
      var list := store[today].userList;
      var list' := r.result.value.userList;
      && r.state == store[today := r.result.value]
      && r.result.value.date == store[today].date
      && |list'| == |list|
      && (forall i :: 0 <= i < |list| && list[i].user != caller ==> list'[i] == list[i])
      && (forall i :: 0 <= i < |list| && list[i].user == caller ==>
            list'[i] == apply(list[i], UpdateFields(data)))
  {
    var fields := UpdateFields(data);
    if today !in store || !HasEntry(store[today].userList, caller) then
      Step(store, Err(DatabaseError("Failed to update study")))
    else
      var day := store[today];
      var list := MapWhere(day.userList, CallersOf(caller), (e: Entry) => apply(e, fields));
      var day' := day.(userList := list);
      Step(store[today := day'], Ok(day'))
  }

  // ---------------------------------------------------------------------------
  // patchVote, deleteVote, patchStatus, patchComment
  //
  // Each loads (and possibly creates) today's document, changes its list in
  // memory and saves it. Any exception on the way is rethrown as a plain
  // `Error` with no message; the document's creation by the load stays.

  /** What `patchVote` resolves to when it does not throw. */
  datatype VoteReply = Patched | ErrorValue

  function SetTime(e: Entry, start: JsValue, end: JsValue): (e': Entry)
    requires e.time.Some?
    ensures e'.time == Some(TimeWindow(start, end))
    ensures e' == e.(time := e'.time)
  {
    e.(time := Some(e.time.value.(start := start, end := end)))
  }

  /** Today's document after `patchVote`'s in-memory assignment. */
  function WindowsSet(day: Day, caller: Id, start: JsValue, end: JsValue): Day {
    day.(userList := MapWhere(day.userList, CallersOf(caller),
                              (e: Entry) => if e.time.Some? then SetTime(e, start, end) else e))
  }

  /** `patchVote`: when both bounds are truthy, set the time window of
      every entry of the caller and save; otherwise resolve to an `Error`
      value without saving. An entry of the caller with no time window
      makes the assignment throw. */
  function PatchVote(store: Store, today: int, caller: Id, start: JsValue, end: JsValue,
                     schemaOk: Day -> bool): (r: Step<Store, VoteReply>)
    ensures var loaded := GetTodayData(store, today).store;
      var list := GetTodayData(store, today).day.userList;
      var missing := exists i :: 0 <= i < |list| && list[i].user == caller && list[i].time.None?;
      && (!(Truthy(start) && Truthy(end)) ==> r == Step(loaded, Ok(ErrorValue)))
      && (Truthy(start) && Truthy(end) ==> r.result != Ok(ErrorValue))
      && (Truthy(start) && Truthy(end) && missing ==> r.result.Err?)
      && (Truthy(start) && Truthy(end) && !missing ==>
            (r.result.Ok? <==> schemaOk(WindowsSet(GetTodayData(store, today).day, caller, start, end))))
      && (r.result.Err? ==> r.state == loaded && r.result.failure == PlainError(""))
      && (r.result.Ok? && r.result.value == Patched ==>
            var list := loaded[today].userList;
            && Truthy(start) && Truthy(end)
            && today in r.state
            && r.state == loaded[today := r.state[today]]
            && r.state[today].date == loaded[today].date
            && |r.state[today].userList| == |list|
            && (forall i :: 0 <= i < |list| && list[i].user != caller ==>
                  r.state[today].userList[i] == list[i])
            && (forall i :: 0 <= i < |list| && list[i].user == caller ==>
                  r.state[today].userList[i] == list[i].(time := Some(TimeWindow(start, end)))))
  {
    var loaded := GetTodayData(store, today);
    if !(Truthy(start) && Truthy(end)) then Step(loaded.store, Ok(ErrorValue))
    else
      var list := loaded.day.userList;
      if exists i :: 0 <= i < |list| && list[i].user == caller && list[i].time.None? then
        Step(loaded.store, Err(PlainError("")))
      else
        var day := WindowsSet(loaded.day, caller, start, end);
        if !schemaOk(day) then Step(loaded.store, Err(PlainError("")))
        else Step(loaded.store[today := day], Ok(Patched))
  }

  /** Today's document after `deleteVote`'s in-memory filter. */
  function Withdrawn(day: Day, caller: Id): Day {
    day.(userList := Filter(day.userList, OthersOf(caller)))
  }

  /** `deleteVote`: remove every entry of the caller from today's list. */
  function DeleteVote(store: Store, today: int, caller: Id, schemaOk: Day -> bool): (r: Step<Store, ()>)
    ensures r.result.Ok? <==> schemaOk(Withdrawn(GetTodayData(store, today).day, caller))
    ensures var loaded := GetTodayData(store, today).store;
      && (r.result.Err? ==> r.state == loaded && r.result.failure == PlainError(""))
      && (r.result.Ok? ==> today in r.state)
      && (r.result.Ok? ==>
            var list := loaded[today].userList;
            var list' := r.state[today].userList;
            && r.state == loaded[today := r.state[today]]
            && r.state[today].date == loaded[today].date
            && (forall e :: e in list' <==> e in list && e.user != caller))
  {
    var loaded := GetTodayData(store, today);
    var day := Withdrawn(loaded.day, caller);
    if !schemaOk(day) then Step(loaded.store, Err(PlainError("")))
    else Step(loaded.store[today := day], Ok(()))
  }

  /** After a successful `deleteVote`, today's list is the old one with the
      caller's entries cut out: every other entry stays, with its
      multiplicity, in its original order. */
  lemma DeleteVoteKeepsOthersInOrder(store: Store, today: int, caller: Id, schemaOk: Day -> bool)
    ensures var r := DeleteVote(store, today, caller, schemaOk);
            var list := GetTodayData(store, today).day.userList;
            r.result.Ok? ==>
              && today in r.state
              && IsSubsequence(r.state[today].userList, list)
              && (forall e :: e in list && e.user != caller ==>
                    multiset(r.state[today].userList)[e] == multiset(list)[e])
  {
    FilterKeepsOrder(GetTodayData(store, today).day.userList, OthersOf(caller));
  }

  /** Today's document after `patchStatus`'s in-memory assignment. */
  function StatusSet(day: Day, caller: Id, status: JsValue): Day {
    day.(userList := MapWhere(day.userList, CallersOf(caller), (e: Entry) => e.(status := status)))
  }

  /** `patchStatus`: set the status of every entry of the caller. */
  function PatchStatus(store: Store, today: int, caller: Id, status: JsValue,
                       schemaOk: Day -> bool): (r: Step<Store, ()>)
    ensures r.result.Ok? <==> schemaOk(StatusSet(GetTodayData(store, today).day, caller, status))
    ensures var loaded := GetTodayData(store, today).store;
      && (r.result.Err? ==> r.state == loaded && r.result.failure == PlainError(""))
      && (r.result.Ok? ==>
            var list := loaded[today].userList;
            && today in r.state
            && r.state == loaded[today := r.state[today]]
            && r.state[today].date == loaded[today].date
            && |r.state[today].userList| == |list|
            && (forall i :: 0 <= i < |list| && list[i].user != caller ==>
                  r.state[today].userList[i] == list[i])
            && (forall i :: 0 <= i < |list| && list[i].user == caller ==>
                  r.state[today].userList[i] == list[i].(status := status)))
  {
    var loaded := GetTodayData(store, today);
    var day := StatusSet(loaded.day, caller, status);
    if !schemaOk(day) then Step(loaded.store, Err(PlainError("")))
    else Step(loaded.store[today := day], Ok(()))
  }

  /** The comment assignment of `patchComment`: a missing comment is first
      created with empty text, then its text is set. */
  function SetComment(e: Entry, text: string): (e': Entry)
    ensures e'.comment == Some(Comment(text))
    ensures e' == e.(comment := e'.comment)
  {
    var withComment := if e.comment.None? then e.(comment := Some(Comment(""))) else e;
    withComment.(comment := Some(withComment.comment.value.(text := text)))
  }

  /** Today's document after `patchComment`'s in-memory assignment. */
  function CommentSet(day: Day, caller: Id, text: string): Day {
    day.(userList := MapWhere(day.userList, CallersOf(caller), (e: Entry) => SetComment(e, text)))
  }

  /** `patchComment`: set the comment text of every entry of the caller. */
  function PatchComment(store: Store, today: int, caller: Id, text: string,
                        schemaOk: Day -> bool): (r: Step<Store, ()>)
    ensures r.result.Ok? <==> schemaOk(CommentSet(GetTodayData(store, today).day, caller, text))
    ensures var loaded := GetTodayData(store, today).store;
      && (r.result.Err? ==> r.state == loaded && r.result.failure == PlainError(""))
      && (r.result.Ok? ==>
            var list := loaded[today].userList;
            && today in r.state
            && r.state == loaded[today := r.state[today]]
            && r.state[today].date == loaded[today].date
            && |r.state[today].userList| == |list|
            && (forall i :: 0 <= i < |list| && list[i].user != caller ==>
                  r.state[today].userList[i] == list[i])
            && (forall i :: 0 <= i < |list| && list[i].user == caller ==>
                  r.state[today].userList[i] == list[i].(comment := Some(Comment(text)))))
  {
    var loaded := GetTodayData(store, today);
    var day := CommentSet(loaded.day, caller, text);
    if !schemaOk(day) then Step(loaded.store, Err(PlainError("")))
    else Step(loaded.store[today := day], Ok(()))
  }

  // ---------------------------------------------------------------------------
  // Relations between the operations

  /** Withdrawing a vote twice leaves the list as withdrawing it once. */
  lemma DeleteVoteIdempotent(store: Store, today: int, caller: Id, schemaOk: Day -> bool)
    requires DeleteVote(store, today, caller, schemaOk).result.Ok?
    ensures var once := DeleteVote(store, today, caller, schemaOk).state;
            DeleteVote(once, today, caller, schemaOk) == Step(once, Ok(()))
  {
    var loaded := GetTodayData(store, today);
    var once := DeleteVote(store, today, caller, schemaOk).state;
    FilterIdempotent(loaded.day.userList, OthersOf(caller));
    assert once[today] == Withdrawn(loaded.day, caller);
    assert Withdrawn(once[today], caller) == once[today];
    assert once[today := once[today]] == once;
  }

  /** Setting the same status again changes nothing. */
  lemma PatchStatusIdempotent(store: Store, today: int, caller: Id, status: JsValue,
                              schemaOk: Day -> bool)
    requires PatchStatus(store, today, caller, status, schemaOk).result.Ok?
    ensures var once := PatchStatus(store, today, caller, status, schemaOk).state;
            PatchStatus(once, today, caller, status, schemaOk) == Step(once, Ok(()))
  {
    var once := PatchStatus(store, today, caller, status, schemaOk).state;
    assert StatusSet(once[today], caller, status) == once[today];
    assert once[today := once[today]] == once;
  }

  /** Setting the same comment again changes nothing. */
  lemma PatchCommentIdempotent(store: Store, today: int, caller: Id, text: string,
                               schemaOk: Day -> bool)
    requires PatchComment(store, today, caller, text, schemaOk).result.Ok?
    ensures var once := PatchComment(store, today, caller, text, schemaOk).state;
            PatchComment(once, today, caller, text, schemaOk) == Step(once, Ok(()))
  {
    var once := PatchComment(store, today, caller, text, schemaOk).state;
    assert CommentSet(once[today], caller, text) == once[today];
    assert once[today := once[today]] == once;
  }

  /** Setting the same time window again changes nothing. */
  lemma PatchVoteIdempotent(store: Store, today: int, caller: Id, start: JsValue, end: JsValue,
                            schemaOk: Day -> bool)
    requires PatchVote(store, today, caller, start, end, schemaOk).result == Ok(Patched)
    ensures var once := PatchVote(store, today, caller, start, end, schemaOk).state;
            PatchVote(once, today, caller, start, end, schemaOk) == Step(once, Ok(Patched))
  {
    var once := PatchVote(store, today, caller, start, end, schemaOk).state;
    var list := once[today].userList;
    assert forall i :: 0 <= i < |list| && list[i].user == caller ==>
             list[i].time == Some(TimeWindow(start, end));
    WindowsSetFixed(once[today], caller, start, end);
    assert GetTodayData(once, today) == Loaded(once, once[today]);
    assert !exists i :: 0 <= i < |list| && list[i].user == caller && list[i].time.None?;
    assert once[today := once[today]] == once;
  }

  /** Setting the window every entry of the caller already has changes
      nothing. */
  lemma WindowsSetFixed(day: Day, caller: Id, start: JsValue, end: JsValue)
    requires forall i :: 0 <= i < |day.userList| && day.userList[i].user == caller ==>
               day.userList[i].time == Some(TimeWindow(start, end))
    ensures WindowsSet(day, caller, start, end) == day
  {
    var r := WindowsSet(day, caller, start, end).userList;
    assert r == day.userList by {
      forall i | 0 <= i < |r| ensures r[i] == day.userList[i] {
        if day.userList[i].user == caller {
          assert r[i] == SetTime(day.userList[i], start, end);
        }
      }
    }
  }

  /** Withdrawing the caller's entries undoes adding one of them. */
  lemma FilterOthersAfterAdd(list: seq<Entry>, e: Entry, caller: Id)
    requires e.user == caller
    ensures Filter(AddToSet(list, e), OthersOf(caller)) == Filter(list, OthersOf(caller))
  {
    if e !in list {
      FilterConcat(list, [e], OthersOf(caller));
      assert [e][1..] == [];
    }
  }

  /** Withdrawing from a store whose document for today is `d` works on
      `d` itself. */
  lemma DeleteVoteOfStored(store: Store, today: int, caller: Id, dayOk: Day -> bool, d: Day)
    ensures var r := DeleteVote(store[today := d], today, caller, dayOk);
      dayOk(Withdrawn(d, caller)) ==> r == Step(store[today := Withdrawn(d, caller)], Ok(()))
  {
    assert GetTodayData(store[today := d], today).day == d;
    assert store[today := d][today := Withdrawn(d, caller)] == store[today := Withdrawn(d, caller)];
  }

  /** A basic vote followed by a successful withdrawal leaves the store
      exactly as the withdrawal alone would. */
  lemma DeleteUndoesCreate(store: Store, today: int, caller: Id, input: Entry,
                           entryOk: Entry -> bool, dayOk: Day -> bool)
    requires WellKeyed(store)
    requires entryOk(BasicVoteEntry(input, caller))
    ensures var voted := CreateBasicVote(store, today, caller, input, entryOk).state;
            var withdrawn := DeleteVote(voted, today, caller, dayOk);
            withdrawn.result.Ok? ==> withdrawn == DeleteVote(store, today, caller, dayOk)
  {
    var e := BasicVoteEntry(input, caller);
    var list := if today in store then store[today].userList else [];
    var voted := store[today := Day(today, AddToSet(list, e))];
    assert CreateBasicVote(store, today, caller, input, entryOk).state == voted;
    FilterOthersAfterAdd(list, e, caller);
    var kept := Day(today, Filter(list, OthersOf(caller)));
    if dayOk(kept) {
      DeleteVoteOfStored(store, today, caller, dayOk, Day(today, AddToSet(list, e)));
      var loaded := GetTodayData(store, today);
      assert loaded.day.userList == list;
      assert loaded.day.(userList := Filter(list, OthersOf(caller))) == kept;
      assert loaded.store[today := kept] == store[today := kept];
      assert DeleteVote(store, today, caller, dayOk) == Step(store[today := kept], Ok(()));
      assert voted[today := kept] == store[today := kept];
    }
  }
}

=== FILE: register.dfy ===
/** Registration validation and approval of `RegisterService`.

    A pending registration is stored, keyed by the caller's external
    identity `uid`, with the telephone number encrypted; an approval turns
    it into a user record with fixed defaults and deletes it. Both
    collections are sequences in natural order. The cipher and the
    environment's key are parameters, and so are the schema parse and the
    clock. The notification to the managers is not modelled.
 */
module RegisterService {
  import opened Common
  import opened Collections

  // ---------------------------------------------------------------------------
  // Telephone check: /^010-\d{4}-\d{4}$/

  /** One position of an anchored pattern: a fixed character or `\d`. */
  datatype PatternChar = Lit(c: char) | Digit

  predicate IsDigit(c: char) {
    '0' <= c <= '9'
  }

  predicate CharMatches(p: PatternChar, c: char) {
    match p
    case Lit(l) => c == l
    case Digit => IsDigit(c)
  }

  /** An anchored match (`^...$`) of a pattern without repetition. */
  predicate FullMatch(pattern: seq<PatternChar>, s: string)
    decreases |s|
  {
    if |pattern| == 0 || |s| == 0 then |pattern| == 0 && |s| == 0
    else CharMatches(pattern[0], s[0]) && FullMatch(pattern[1..], s[1..])
  }

  /** `^010-\d{4}-\d{4}$`, its quantifiers written out. */
  const TelephonePattern: seq<PatternChar> :=
    [Lit('0'), Lit('1'), Lit('0'), Lit('-'),
     Digit, Digit, Digit, Digit, Lit('-'),
     Digit, Digit, Digit, Digit]

  predicate IsTelephone(s: string) {
    FullMatch(TelephonePattern, s)
  }

  /** An anchored match is a character-by-character match of equal length. */
  lemma {:induction false} FullMatchPositionwise(pattern: seq<PatternChar>, s: string)
    ensures FullMatch(pattern, s) <==>
      |s| == |pattern| && forall i :: 0 <= i < |s| ==> CharMatches(pattern[i], s[i])
    decreases |s|
  {
    if |pattern| > 0 && |s| > 0 {
      FullMatchPositionwise(pattern[1..], s[1..]);
      if |s| == |pattern| {
        assert (forall i :: 0 <= i < |s| ==> CharMatches(pattern[i], s[i])) <==>
               CharMatches(pattern[0], s[0]) &&
               forall i :: 0 <= i < |s[1..]| ==> CharMatches(pattern[1..][i], s[1..][i]) by {
          forall i | 0 <= i < |s[1..]|
            ensures pattern[1..][i] == pattern[i + 1] && s[1..][i] == s[i + 1]
          {
          }
        }
      }
    }
  }

  /** The telephone check accepts exactly `010-`, four digits, `-`, four
      digits: thirteen characters. */
  lemma IsTelephoneShape(s: string)
    ensures IsTelephone(s) <==>
      && |s| == 13
      && s[..4] == "010-"
      && s[8] == '-'
      && (forall i :: 4 <= i < 8 ==> IsDigit(s[i]))
      && (forall i :: 9 <= i < 13 ==> IsDigit(s[i]))
  {
    FullMatchPositionwise(TelephonePattern, s);
    if |s| == 13 && s[..4] == "010-" {
      assert s[0] == '0' && s[1] == '1' && s[2] == '0' && s[3] == '-' by {
        assert s[..4][0] == s[0] && s[..4][1] == s[1] && s[..4][2] == s[2] && s[..4][3] == s[3];
      }
    }
    if IsTelephone(s) {
      assert CharMatches(TelephonePattern[0], s[0]) && CharMatches(TelephonePattern[1], s[1]);
      assert CharMatches(TelephonePattern[2], s[2]) && CharMatches(TelephonePattern[3], s[3]);
      assert s[..4] == [s[0], s[1], s[2], s[3]];
      assert CharMatches(TelephonePattern[8], s[8]);
    }
  }

  // ---------------------------------------------------------------------------
  // Encryption helpers

  /** `process.env.cryptoKey` is set to a non-empty string. */
  predicate HasKey(key: Option<string>) {
    key.Some? && |key.value| > 0
  }

  /** `encodeByAES56`: the plaintext itself when no key is set. */
  function Encode(key: Option<string>, tel: string, encrypt: (string, string) -> string): (r: string)
    ensures !HasKey(key) ==> r == tel
    ensures HasKey(key) ==> r == encrypt(tel, key.value)
  {
    if !HasKey(key) then tel else encrypt(tel, key.value)
  }

  /** `decodeByAES256`: the stored text itself when no key is set. */
  function Decode(key: Option<string>, stored: string, decrypt: (string, string) -> string): (r: string)
    ensures !HasKey(key) ==> r == stored
    ensures HasKey(key) ==> r == decrypt(stored, key.value)
  {
    if !HasKey(key) then stored else decrypt(stored, key.value)
  }

  /** Without a key, decoding undoes encoding (both are the identity). */
  lemma DecodeEncodeWithoutKey(key: Option<string>, tel: string,
                               encrypt: (string, string) -> string, decrypt: (string, string) -> string)
    requires !HasKey(key)
    ensures Decode(key, Encode(key, tel, encrypt), decrypt) == tel
  {
  }

  /** With a key, decoding undoes encoding exactly when the cipher pair
      round-trips on this number and key. */
  lemma DecodeEncodeWithKey(key: Option<string>, tel: string,
                            encrypt: (string, string) -> string, decrypt: (string, string) -> string)
    requires HasKey(key)
    ensures (Decode(key, Encode(key, tel, encrypt), decrypt) == tel) <==>
            (decrypt(encrypt(tel, key.value), key.value) == tel)
  {
  }

  // ---------------------------------------------------------------------------
  // register

  /** The registration form without `uid` and `profileImage`, which come
      from the caller's token. `details` holds the fields the service only
      passes through. */
  datatype RegisterForm = RegisterForm(telephone: string, location: string, details: map<string, JsValue>)

  datatype Registered = Registered(
    uid: string,
    profileImage: string,
    telephone: string,
    location: string,
    details: map<string, JsValue>)

  function UidOf(r: Registered): string {
    r.uid
  }

  /** Every field of `part` is in `whole`, with the same value. */
  predicate Extends(whole: map<string, JsValue>, part: map<string, JsValue>) {
    forall k :: k in part ==> k in whole && whole[k] == part[k]
  }

  /** `findOneAndUpdate` with a plain object applies it as `$set`: the
      stored registration takes every field of the update and keeps the
      pass-through fields only it has. */
  function MergeRegistration(stored: Registered, update: Registered): (m: Registered)
    ensures m.(details := update.details) == update
    ensures Extends(m.details, update.details)
    ensures forall k :: k in stored.details && k !in update.details ==>
              k in m.details && m.details[k] == stored.details[k]
    ensures m.details.Keys == stored.details.Keys + update.details.Keys
  {
    update.(details := stored.details + update.details)
  }

  /** `register`: check the telephone, encrypt it, refuse when encryption
      did nothing, and upsert the registration keyed by the caller's uid. */
  function Register(regs: seq<Registered>, uid: string, picture: string, form: RegisterForm,
                    key: Option<string>, encrypt: (string, string) -> string,
                    schemaOk: Registered -> bool): (r: Step<seq<Registered>, ()>)
    ensures r.result.Err? ==> r.state == regs
    ensures !IsTelephone(form.telephone) ==> r.result == Err(PlainError("Invalid telephone number"))
    ensures var enc := Encode(key, form.telephone, encrypt);
      IsTelephone(form.telephone) && (enc == form.telephone || |enc| == 0) ==>
        r.result == Err(PlainError("Key not exist"))
    ensures var enc := Encode(key, form.telephone, encrypt);
      var rec := Registered(uid, picture, enc, form.location, form.details);
      && (r.result.Ok? <==> IsTelephone(form.telephone) && enc != form.telephone && |enc| > 0 && schemaOk(rec))
      && (IsTelephone(form.telephone) && enc != form.telephone && |enc| > 0 && !schemaOk(rec) ==>
            r.result.Err? && r.result.failure.SchemaError?)
      && (r.result.Ok? ==>
            && (forall x :: x in regs && x.uid != uid ==> x in r.state)
            && (forall x :: x in r.state && x.uid != uid ==> x in regs)
            && ((forall i :: 0 <= i < |regs| ==> regs[i].uid != uid) ==> r.state == regs + [rec])
            && ((exists i :: 0 <= i < |regs| && regs[i].uid == uid) ==>
                  exists i :: 0 <= i < |regs| && regs[i].uid == uid
                    && (forall j :: 0 <= j < i ==> regs[j].uid != uid)
                    && r.state == regs[i := MergeRegistration(regs[i], rec)]))
    ensures UniqueKeys(regs, UidOf) ==> UniqueKeys(r.state, UidOf)
  {
    if !IsTelephone(form.telephone) then Step(regs, Err(PlainError("Invalid telephone number")))
    else
      var enc := Encode(key, form.telephone, encrypt);
      if enc == form.telephone then Step(regs, Err(PlainError("Key not exist")))
      else if |enc| == 0 then Step(regs, Err(PlainError("Key not exist")))
      else
        var rec := Registered(uid, picture, enc, form.location, form.details);
        if !schemaOk(rec) then Step(regs, Err(SchemaError("invalid registration")))
        else
          assert forall y :: UidOf(MergeRegistration(y, rec)) == UidOf(rec);
          Step(Upsert(regs, rec, UidOf, MergeRegistration), Ok(()))
  }

  /** After a successful registration the caller's record holds the
      encrypted number, the token's uid and picture and the form's fields;
      pass-through fields of an earlier registration stay when the form
      does not set them. */
  lemma RegisteredRecordCarriesForm(regs: seq<Registered>, uid: string, picture: string, form: RegisterForm,
                                    key: Option<string>, encrypt: (string, string) -> string,
                                    schemaOk: Registered -> bool)
    requires UniqueKeys(regs, UidOf)
    requires Register(regs, uid, picture, form, key, encrypt, schemaOk).result.Ok?
    ensures var after := Register(regs, uid, picture, form, key, encrypt, schemaOk).state;
      && (exists y :: y in after && y.uid == uid)
      && (forall y :: y in after && y.uid == uid ==>
            && y.profileImage == picture
            && y.telephone == Encode(key, form.telephone, encrypt)
            && y.location == form.location
            && Extends(y.details, form.details)
            && forall prior :: prior in regs && prior.uid == uid ==>
                 forall k :: k in prior.details && k !in form.details ==>
                   k in y.details && y.details[k] == prior.details[k])
  {
    var rec := Registered(uid, picture, Encode(key, form.telephone, encrypt), form.location, form.details);
    assert forall y :: UidOf(MergeRegistration(y, rec)) == UidOf(rec);
    assert Register(regs, uid, picture, form, key, encrypt, schemaOk).state ==
           Upsert(regs, rec, UidOf, MergeRegistration);
    UpsertedRegistration(regs, rec);
  }

  /** With one record per uid, the record an upsert of `rec` leaves under
      its uid carries `rec`'s fields over the earlier record's. */
  lemma UpsertedRegistration(regs: seq<Registered>, rec: Registered)
    requires UniqueKeys(regs, UidOf)
    requires forall y :: UidOf(MergeRegistration(y, rec)) == UidOf(rec)
    ensures var after := Upsert(regs, rec, UidOf, MergeRegistration);
      && (exists y :: y in after && y.uid == rec.uid)
      && (forall y :: y in after && y.uid == rec.uid ==>
            && y.(details := rec.details) == rec
            && Extends(y.details, rec.details)
            && forall prior :: prior in regs && prior.uid == rec.uid ==>
                 forall k :: k in prior.details && k !in rec.details ==>
                   k in y.details && y.details[k] == prior.details[k])
  {
    var after := Upsert(regs, rec, UidOf, MergeRegistration);
    UpsertedElement(regs, rec, UidOf, MergeRegistration);
    forall y | y in after && y.uid == rec.uid
      ensures y.(details := rec.details) == rec && Extends(y.details, rec.details)
      ensures forall prior :: prior in regs && prior.uid == rec.uid ==>
                forall k :: k in prior.details && k !in rec.details ==>
                  k in y.details && y.details[k] == prior.details[k]
    {
      assert UidOf(y) == UidOf(rec);
      if exists z :: z in regs && z.uid == rec.uid {
        var z :| z in regs && z.uid == rec.uid;
        assert UidOf(z) == UidOf(rec);
        assert y == MergeRegistration(z, rec);
      } else {
        assert forall z :: z in regs ==> UidOf(z) != UidOf(rec);
        assert y == rec;
      }
    }
  }

  /** Without a key nothing is ever registered. */
  lemma RegisterNeedsKey(regs: seq<Registered>, uid: string, picture: string, form: RegisterForm,
                         key: Option<string>, encrypt: (string, string) -> string,
                         schemaOk: Registered -> bool)
    requires !HasKey(key)
    ensures Register(regs, uid, picture, form, key, encrypt, schemaOk).result.Err?
    ensures Register(regs, uid, picture, form, key, encrypt, schemaOk).state == regs
  {
  }

  /** A successful registration stored a telephone that passed the check:
      thirteen characters before encryption. */
  lemma RegisteredTelephoneChecked(regs: seq<Registered>, uid: string, picture: string, form: RegisterForm,
                                   key: Option<string>, encrypt: (string, string) -> string,
                                   schemaOk: Registered -> bool)
    requires Register(regs, uid, picture, form, key, encrypt, schemaOk).result.Ok?
    ensures |form.telephone| == 13 && form.telephone[..4] == "010-" && form.telephone[8] == '-'
    ensures forall i :: 4 <= i < 8 ==> IsDigit(form.telephone[i])
    ensures forall i :: 9 <= i < 13 ==> IsDigit(form.telephone[i])
  {
    IsTelephoneShape(form.telephone);
  }

  /** Registering again with the same uid replaces the earlier registration:
      the collection never grows past one record per uid. */
  lemma RegisterAgainReplaces(regs: seq<Registered>, uid: string, picture: string,
                              first: RegisterForm, second: RegisterForm,
                              key: Option<string>, encrypt: (string, string) -> string,
                              schemaOk: Registered -> bool)
    requires UniqueKeys(regs, UidOf)
    requires Register(regs, uid, picture, first, key, encrypt, schemaOk).result.Ok?
    ensures var once := Register(regs, uid, picture, first, key, encrypt, schemaOk).state;
            var twice := Register(once, uid, picture, second, key, encrypt, schemaOk);
            twice.result.Ok? ==> |twice.state| == |once| && UniqueKeys(twice.state, UidOf)
  {
    RegisteredRecordCarriesForm(regs, uid, picture, first, key, encrypt, schemaOk);
  }

  // ---------------------------------------------------------------------------
  // approve, deleteRegisterUser

  /** A user record: the registration's fields and the defaults approval adds. */
  datatype UserRecord = UserRecord(
    uid: string,
    profileImage: string,
    telephone: string,
    location: string,
    details: map<string, JsValue>,
    role: string,
    registerDate: int,
    isActive: bool,
    deposit: int)

  function UserUidOf(u: UserRecord): string {
    u.uid
  }

  datatype Stores = Stores(registered: seq<Registered>, users: seq<UserRecord>)

  function HasUid(uid: string): (p: Registered -> bool)
    ensures forall x :: p(x) <==> x.uid == uid
  {
    (x: Registered) => x.uid == uid
  }

  /** `deleteRegisterUser`: `deleteOne({ uid })`. */
  function DeleteRegisterUser(regs: seq<Registered>, uid: string): (r: seq<Registered>)
    ensures forall x :: x in r ==> x in regs
    ensures forall x :: x in regs && x.uid != uid ==> x in r
    ensures UniqueKeys(regs, UidOf) ==> forall x :: x in r ==> x.uid != uid
    ensures (exists i :: 0 <= i < |regs| && regs[i].uid == uid) ==> |r| == |regs| - 1
    ensures (forall i :: 0 <= i < |regs| ==> regs[i].uid != uid) ==> r == regs
    ensures (exists i :: 0 <= i < |regs| && regs[i].uid == uid) ==>
              exists i :: 0 <= i < |regs| && regs[i].uid == uid
                && (forall j :: 0 <= j < i ==> regs[j].uid != uid)
                && r == regs[..i] + regs[i + 1..]
    ensures forall x: Registered :: x.uid != uid ==> multiset(r)[x] == multiset(regs)[x]
  {
    assert UniqueKeys(regs, UidOf) ==> AtMostOne(regs, HasUid(uid));
    RemoveFirst(regs, HasUid(uid))
  }

  /** With one record per uid, deleting by uid keeps every other record in
      its order. */
  lemma DeleteRegisterUserKeepsOrder(regs: seq<Registered>, uid: string)
    requires UniqueKeys(regs, UidOf)
    ensures DeleteRegisterUser(regs, uid) == Filter(regs, Negate(HasUid(uid)))
    ensures IsSubsequence(DeleteRegisterUser(regs, uid), regs)
  {
    assert AtMostOne(regs, HasUid(uid));
    RemoveFirstIsFilter(regs, HasUid(uid));
    FilterKeepsOrder(regs, Negate(HasUid(uid)));
  }

  /** Deleting by uid removes exactly the first record of the uid. */
  lemma DeleteRegisterUserAt(regs: seq<Registered>, uid: string, i: nat)
    requires i < |regs| && regs[i].uid == uid
    requires forall j :: 0 <= j < i ==> regs[j].uid != uid
    ensures DeleteRegisterUser(regs, uid) == regs[..i] + regs[i + 1..]
  {
    var m :| 0 <= m < |regs| && regs[m].uid == uid
             && (forall j :: 0 <= j < m ==> regs[j].uid != uid)
             && DeleteRegisterUser(regs, uid) == regs[..m] + regs[m + 1..];
    assert m == i;
  }

  const Deposit: int := 3000

  /** The `$set` of a user form onto an existing user record, as
      `MergeRegistration` for registrations. */
  function MergeUser(stored: UserRecord, update: UserRecord): (m: UserRecord)
    ensures m.(details := update.details) == update
    ensures Extends(m.details, update.details)
    ensures forall k :: k in stored.details && k !in update.details ==>
              k in m.details && m.details[k] == stored.details[k]
    ensures m.details.Keys == stored.details.Keys + update.details.Keys
  {
    update.(details := stored.details + update.details)
  }

  /** Some user carries every field of `p`, and possibly more pass-through
      fields. */
  ghost predicate Holds(users: seq<UserRecord>, p: UserRecord) {
    exists u :: u in users && u.(details := p.details) == p && Extends(u.details, p.details)
  }

  /** The user record approval builds from a registration. */
  function Promote(reg: Registered, now: int): (u: UserRecord)
    ensures u.uid == reg.uid && u.profileImage == reg.profileImage && u.telephone == reg.telephone
    ensures u.location == reg.location && u.details == reg.details
    ensures u.role == "human" && u.registerDate == now && u.isActive && u.deposit == Deposit
  {
    UserRecord(reg.uid, reg.profileImage, reg.telephone, reg.location, reg.details,
               "human", now, true, Deposit)
  }

  /** The user-side write of `approve`: `findOneAndUpdate({ uid }, p,
      { upsert: true })` on the user collection. */
  function UpsertUser(users: seq<UserRecord>, p: UserRecord): (r: seq<UserRecord>)
    ensures Holds(r, p)
    ensures (forall k :: 0 <= k < |users| ==> users[k].uid != p.uid) ==> r == users + [p]
    ensures (exists k :: 0 <= k < |users| && users[k].uid == p.uid) ==>
              exists k :: 0 <= k < |users| && users[k].uid == p.uid
                && (forall j :: 0 <= j < k ==> users[j].uid != p.uid)
                && r == users[k := MergeUser(users[k], p)]
    ensures forall u :: u in users && u.uid != p.uid ==> u in r
    ensures forall u :: u in r && u.uid != p.uid ==> u in users
    ensures UniqueKeys(users, UserUidOf) ==> UniqueKeys(r, UserUidOf)
  {
    assert forall y :: UserUidOf(MergeUser(y, p)) == UserUidOf(p);
    var r := Upsert(users, p, UserUidOf, MergeUser);
    assert Holds(r, p) by {
      if exists j :: 0 <= j < |users| && users[j].uid == p.uid {
        var k :| 0 <= k < |users| && r == users[k := MergeUser(users[k], p)];
        assert r[k] in r;
      } else {
        assert r[|users|] == p;
      }
    }
    r
  }

  /** The two writes of a successful `approve` for the registration at `i`,
      the first one of its uid: the promoted user is upserted onto the
      users, then the registration is deleted. */
  function PromoteAt(stores: Stores, i: nat, now: int): (after: Stores)
    requires i < |stores.registered|
    requires forall j :: 0 <= j < i ==> stores.registered[j].uid != stores.registered[i].uid
    ensures var uid := stores.registered[i].uid;
      && Holds(after.users, Promote(stores.registered[i], now))
      && after.users == UpsertUser(stores.users, Promote(stores.registered[i], now))
      && after.registered == stores.registered[..i] + stores.registered[i + 1..]
      && |after.registered| == |stores.registered| - 1
      && (forall x :: x in stores.registered && x.uid != uid ==> x in after.registered)
      && (forall u :: u in stores.users && u.uid != uid ==> u in after.users)
      && (forall u :: u in after.users && u.uid != uid ==> u in stores.users)
      && (UniqueKeys(stores.registered, UidOf) ==> forall x :: x in after.registered ==> x.uid != uid)
    ensures UniqueKeys(stores.users, UserUidOf) ==> UniqueKeys(after.users, UserUidOf)
    ensures UniqueKeys(stores.registered, UidOf) ==> UniqueKeys(after.registered, UidOf)
  {
    var uid := stores.registered[i].uid;
    var p := Promote(stores.registered[i], now);
    var users := UpsertUser(stores.users, p);
    assert forall u :: u in users && u.uid != uid ==> u in stores.users by {
      assert p.uid == uid;
    }
    var regs := DeleteRegisterUser(stores.registered, uid);
    DeleteRegisterUserAt(stores.registered, uid, i);
    assert UniqueKeys(stores.registered, UidOf) ==> UniqueKeys(regs, UidOf) by {
      if UniqueKeys(stores.registered, UidOf) {
        DeleteRegisterUserKeepsOrder(stores.registered, uid);
        SubsequenceUniqueKeys(regs, stores.registered, UidOf);
      }
    }
    Stores(regs, users)
  }

  /** `approve`: promote the registration of `uid` to a user (upsert keyed
      by uid), then delete the registration. */
  function Approve(stores: Stores, uid: string, now: int): (r: Step<Stores, ()>)
    ensures r.result.Err? <==> forall i :: 0 <= i < |stores.registered| ==> stores.registered[i].uid != uid
    ensures r.result.Err? ==> r.state == stores && r.result.failure == ValidationError("wrong uid")
    ensures r.result.Ok? ==>
      && (exists i :: 0 <= i < |stores.registered| && stores.registered[i].uid == uid
            && (forall j :: 0 <= j < i ==> stores.registered[j].uid != uid)
            && Holds(r.state.users, Promote(stores.registered[i], now))
            && r.state.users == UpsertUser(stores.users, Promote(stores.registered[i], now))
            && r.state.registered == stores.registered[..i] + stores.registered[i + 1..])
      && |r.state.registered| == |stores.registered| - 1
      && (forall x :: x in stores.registered && x.uid != uid ==> x in r.state.registered)
      && (forall u :: u in stores.users && u.uid != uid ==> u in r.state.users)
      && (forall u :: u in r.state.users && u.uid != uid ==> u in stores.users)
    ensures r.result.Ok? && UniqueKeys(stores.registered, UidOf) ==>
      forall x :: x in r.state.registered ==> x.uid != uid
    ensures UniqueKeys(stores.users, UserUidOf) ==> UniqueKeys(r.state.users, UserUidOf)
    ensures UniqueKeys(stores.registered, UidOf) ==> UniqueKeys(r.state.registered, UidOf)
  {
    match FindFirst(stores.registered, HasUid(uid))
    case None => Step(stores, Err(ValidationError("wrong uid")))
    case Some(i) => Step(PromoteAt(stores, i, now), Ok(()))
  }

  /** After a successful approval the user exists and, with one
      registration per uid, the registration does not. */
  lemma ApprovePromotes(stores: Stores, uid: string, now: int)
    requires UniqueKeys(stores.registered, UidOf)
    requires Approve(stores, uid, now).result.Ok?
    ensures var after := Approve(stores, uid, now).state;
      && (exists u :: u in after.users && u.uid == uid && u.role == "human" && u.isActive && u.deposit == 3000)
      && (forall x :: x in after.registered ==> x.uid != uid)
  {
    var after := Approve(stores, uid, now).state;
    var i :| 0 <= i < |stores.registered| && stores.registered[i].uid == uid
             && Holds(after.users, Promote(stores.registered[i], now));
    HoldsFields(after.users, Promote(stores.registered[i], now));
  }

  /** A user that carries every field of `p` has `p`'s uid, role,
      activation and deposit. */
  lemma HoldsFields(users: seq<UserRecord>, p: UserRecord)
    requires Holds(users, p)
    ensures exists u :: u in users && u.uid == p.uid && u.role == p.role
                        && u.isActive == p.isActive && u.deposit == p.deposit
  {
    var u :| u in users && u.(details := p.details) == p && Extends(u.details, p.details);
    assert u.uid == p.uid && u.role == p.role && u.isActive == p.isActive && u.deposit == p.deposit;
  }
}
